=== FILE: README.md ===
# CacheOnlyKeyWrapper, modelled in Dafny

CacheOnlyKeyWrapper is a small command-line kit for Salesforce Shield
"cache-only keys". Its `WrapEncryptionKey` command takes a 256-bit AES key
or generates one. It wraps the key as a JWE (RSA-OAEP key management,
A256GCM content encryption) to the public key of a certificate. It writes
the result, with a key identifier (kid), to a file named after the kid. A
generated key is then shown as hex text, or cut into Shamir secret-sharing
"parts" that are printed on the console. `CryptoUtils` adds an
IV‖ciphertext framing around AES-CBC.

The model covers the four pieces of logic the kit itself owns. The three
cryptographic primitives it delegates to libraries are function values:

| file | module | what it models |
|---|---|---|
| `wrappers.dfy` | `Wrappers` | `Option` and `Result` |
| `hex.dfy` | `Hex` | commons-codec `Hex.encodeHexString` / `Hex.decodeHex` (base16 of section 8 of RFC 4648, lower case out, either case in) |
| `text.dfy` | `Text` | `Integer.toString` and `String.getBytes(UTF_8)` (section 3 of RFC 3629) |
| `secret_sharing.dfy` | `SecretSharing` | `SSSUtils`: the share map ↔ part strings codec, as a class over an `array<string>` |
| `crypto_utils.dfy` | `CryptoUtils` | `CryptoUtils`: IV‖ciphertext framing with arrays and `System.arraycopy` |
| `key_representation.dfy` | `Envelope` | `KeyRepresentation`: the mutable record, `getJwe`, the `toString` frame |
| `wrap_encryption_key.dfy` | `WrapEncryptionKey` | the decisions of `WrapEncryptionKey.main` |

The foreign parts are parameters:
- Shamir `Scheme.split` / `Scheme.join` are `SplitFn` / `JoinFn`.
  - The library's promise that `split` numbers its shares exactly `1..n` is the predicate `NumbersSharesOneToN`.
  - `RecoverAfterSplit` and `PrintedPartsRecoverKey` assume a `join` that inverts `split`.
- jose4j `getCompactSerialization` is `Jose`. `None` stands for `JoseException`.
- The AES cipher is `CipherFn`. `None` stands for any exception it throws.
- Certificate loading is `CertLoader`.
- `SecureRandom`, `KeyGenerator` and `UUID.randomUUID` are byte and string parameters.

Behaviour of the code worth knowing:
- A part of one digit and nothing else (`"0"`) is accepted by `recover`.
  It yields share 1 with an empty payload.
- The envelope is written as `{"kid" : "` + kid + `","jwe" : "` + jwe +
  `"}`, with a space before each colon. The kid is inserted without any
  JSON escaping. `QuotedKidIsAmbiguous` shows two different envelopes
  that print as the same text.
- A JOSE failure does not fail the wrap. `getJwe` returns `null` and the
  envelope carries the text `null` as its `jwe` value.
- The envelope file is written before the Shamir parameters are used. The
  parts are printed before the example command that can crash (see
  Findings).

## Model

| member | source | states |
|---|---|---|
| Hex.EncodeHex | src/main/java/com/salesforce/shield/platformencryption/util/SSSUtils.java:31 | two characters per byte, all lower-case hex digits |
| Hex.DigitPosition | src/main/java/com/salesforce/shield/platformencryption/util/SSSUtils.java:44-45 | a hex digit of either case is worth its position in the lower-case alphabet `0123456789abcdef`, so `A`..`F` are worth 10..15 like `a`..`f` |
| Hex.DecodeHex | src/main/java/com/salesforce/shield/platformencryption/util/SSSUtils.java:44-45 | succeeds iff the text has even length and only hex digits of either case; odd length is reported before any character is examined; otherwise the error names the first non-hex character; a success has half as many bytes as characters |
| Hex.DecodedPairs | src/main/java/com/salesforce/shield/platformencryption/util/SSSUtils.java:44-45 | a successful decode is the text read pair by pair: byte j is 16 times the value of character 2j plus the value of character 2j+1, so the high nibble comes first |
| Hex.DecodeEncode | src/main/java/com/salesforce/shield/platformencryption/util/SSSUtils.java:31-45 | decoding the hex of any bytes gives those bytes back |
| Hex.EncodeDecode | src/main/java/com/salesforce/shield/platformencryption/util/SSSUtils.java:31-45 | on lower-case hex that decodes, encoding the result gives the same text back |
| Hex.DecodeIgnoresCase | src/main/java/com/salesforce/shield/platformencryption/util/SSSUtils.java:44-45 | a text decodes exactly as its lower-cased form does: the same bytes, or the same fault at the same index |
| Text.Decimal | src/main/java/com/salesforce/shield/platformencryption/util/SSSUtils.java:32 | the decimal text of a non-negative int is non-empty, all digits, one digit exactly below 10, two digits exactly in 10..99, no leading zero |
| Text.DecimalRoundTrip | src/main/java/com/salesforce/shield/platformencryption/util/SSSUtils.java:32-45 | reading the decimal text of `n` as a number gives `n` |
| Text.IntText | src/main/java/com/salesforce/shield/platformencryption/cli/WrapEncryptionKey.java:130 | the text `"" + i` of any int starts with a minus sign exactly when it is negative, then digits, and reads back as `i` |
| Text.Utf8Char | src/main/java/com/salesforce/shield/platformencryption/cli/WrapEncryptionKey.java:129 | one to four bytes per character; exactly one, equal to the code, for ASCII; otherwise a lead byte at or above 0xC0 followed by continuation bytes 0x80..0xBF |
| Text.Utf8Encode | src/main/java/com/salesforce/shield/platformencryption/util/CryptoUtils.java:32 | between one and four bytes per character; a one-character text is that character's UTF-8 bytes |
| Text.Utf8EncodeConcat | src/main/java/com/salesforce/shield/platformencryption/util/CryptoUtils.java:32 | the encoding of a concatenation is the concatenation of the encodings, so a text's bytes are its characters' bytes in text order |
| Text.Utf8CharReadsBack | src/main/java/com/salesforce/shield/platformencryption/util/CryptoUtils.java:32 | reading the one to four bytes of a character back (lead-byte bits, then six bits per continuation byte) gives the character |
| Text.Utf8EncodeAscii | src/main/java/com/salesforce/shield/platformencryption/cli/WrapEncryptionKey.java:124-129 | on ASCII text the UTF-8 bytes are the character codes, one per character |
| SecretSharing.EncodePart | src/main/java/com/salesforce/shield/platformencryption/util/SSSUtils.java:30-32 | a part for share numbers 1..10 is one digit (number - 1) followed by the payload's hex, `1 + 2·|payload|` long; from share 11 on the index takes two or more digits |
| SecretSharing.DecodePart | src/main/java/com/salesforce/shield/platformencryption/util/SSSUtils.java:43-45 | empty part fails; a non-digit first character fails; otherwise the rest must hex-decode, and its decoder error is passed through unchanged; on success the share number is the digit plus one (1..10) and the payload is exactly the decoded rest |
| SecretSharing.PartRoundTrip | src/main/java/com/salesforce/shield/platformencryption/util/SSSUtils.java:30-45 | for share numbers 1..10, reading a part back gives its number and payload |
| SecretSharing.PartReadBack | src/main/java/com/salesforce/shield/platformencryption/util/SSSUtils.java:43-45 | a part that reads back, with a lower-case payload, is exactly the part `split` writes for that number and payload |
| SecretSharing.TwoDigitPartIsRejected | src/main/java/com/salesforce/shield/platformencryption/util/SSSUtils.java:30-45 | a part written for share 11..100 (two-digit index) is read back as an odd-length hex failure, which is why `n` must stay at most 10 |
| SecretSharing.ParseParts | src/main/java/com/salesforce/shield/platformencryption/util/SSSUtils.java:41-46 | the parts read into a share map iff every part reads; otherwise the error names the first failing part and its fault |
| SecretSharing.ParsedShareNumbers | src/main/java/com/salesforce/shield/platformencryption/util/SSSUtils.java:42-46 | the map's keys are exactly the share numbers the parts carry |
| SecretSharing.LastPartWins | src/main/java/com/salesforce/shield/platformencryption/util/SSSUtils.java:45 | when two parts carry the same number, no error is raised; the map holds the payload of the later one |
| SecretSharing.PickedPartsReadBack | src/main/java/com/salesforce/shield/platformencryption/util/SSSUtils.java:29-46 | any selection of the parts `split` produced, in any order and with repeats, reads back as exactly the library shares it names, while n ≤ 10 |
| SecretSharing.SplitPartsReadBack | src/main/java/com/salesforce/shield/platformencryption/util/SSSUtils.java:29-46 | while n ≤ 10, reading all the parts gives back exactly the library's share map |
| SecretSharing.SplitParts | src/main/java/com/salesforce/shield/platformencryption/util/SSSUtils.java:28-34 | one part per share number 1..n, and slot i holds the part of share i + 1 |
| SecretSharing.Recovered | src/main/java/com/salesforce/shield/platformencryption/util/SSSUtils.java:41-47 | fails exactly when some part does not read, with that part's error; otherwise it is `join` of the share map the parts read into |
| SecretSharing.RecoverAfterSplit | src/main/java/com/salesforce/shield/platformencryption/util/SSSUtils.java:25-48 | for n ≤ 10 and a `join` that inverts `split`, recovering the split parts yields the secret |
| SecretSharing.SssUtils.constructor | src/main/java/com/salesforce/shield/platformencryption/util/SSSUtils.java:21-23 | the object holds the scheme (n, k) and the library operations; the scheme satisfies the library's bounds |
| SecretSharing.SssUtils.Split | src/main/java/com/salesforce/shield/platformencryption/util/SSSUtils.java:25-37 | a fresh array of n parts; slot i holds the part of share i + 1, whatever order the shares are visited in |
| SecretSharing.SssUtils.Recover | src/main/java/com/salesforce/shield/platformencryption/util/SSSUtils.java:39-49 | stops at the first unreadable part with its index and fault; otherwise joins the share map the parts read into |
| CryptoUtils.ArrayCopy | src/main/java/com/salesforce/shield/platformencryption/util/CryptoUtils.java:57-58 | the destination range receives the source range in order; every other destination element is unchanged |
| CryptoUtils.NextBytes | src/main/java/com/salesforce/shield/platformencryption/util/CryptoUtils.java:44-46 | the IV array holds the drawn bytes |
| CryptoUtils.Encrypt | src/main/java/com/salesforce/shield/platformencryption/util/CryptoUtils.java:38-65 | the hex of the 16-byte IV followed by the cipher output; a cipher failure is reported as such |
| CryptoUtils.EncryptText | src/main/java/com/salesforce/shield/platformencryption/util/CryptoUtils.java:30-36 | the same for the UTF-8 bytes of the text |
| CryptoUtils.SplitIv | src/main/java/com/salesforce/shield/platformencryption/util/CryptoUtils.java:76-83 | possible iff there are at least 16 bytes; then the first 16 are the IV and IV ++ rest is the input |
| CryptoUtils.Decrypted | src/main/java/com/salesforce/shield/platformencryption/util/CryptoUtils.java:67-97 | fails as not-hex iff the text does not hex-decode; fails as too short iff it decodes to fewer than 16 bytes; otherwise the decipher is handed the first 16 decoded bytes as the IV and all the rest as the cipher text, a decipher failure is reported as a cipher failure, and a success carries exactly the deciphered bytes |
| CryptoUtils.Decrypt | src/main/java/com/salesforce/shield/platformencryption/util/CryptoUtils.java:67-97 | copying the IV and the cipher text out through arrays gives exactly `Decrypted` |
| CryptoUtils.FrameRoundTrip | src/main/java/com/salesforce/shield/platformencryption/util/CryptoUtils.java:56-83 | the framed text is `2·(16 + |ciphertext|)` characters, decodes to IV ++ ciphertext, and is cut back into the same IV and ciphertext |
| CryptoUtils.DecryptAfterEncrypt | src/main/java/com/salesforce/shield/platformencryption/util/CryptoUtils.java:38-97 | decrypting what was encrypted gives the clear text back whenever the cipher inverts |
| CryptoUtils.GenerateAesKey | src/main/java/com/salesforce/shield/platformencryption/util/CryptoUtils.java:100-114 | a 256-bit key taken from the generator's randomness |
| Envelope.Frame | src/main/java/com/salesforce/shield/platformencryption/util/KeyRepresentation.java:66-69 | the text is `{"kid" : "`, the kid, `","jwe" : "`, the JWE, then `"}`, each at its position and nothing else |
| Envelope.Rendered | src/main/java/com/salesforce/shield/platformencryption/util/KeyRepresentation.java:46-69 | the envelope text is the frame around the kid and the JOSE serialization of the key to the wrapping key, or around `null` when JOSE fails |
| Envelope.JweText | src/main/java/com/salesforce/shield/platformencryption/util/KeyRepresentation.java:68 | a missing JWE is concatenated as the text `null` |
| Envelope.ParseFrameInverts | src/main/java/com/salesforce/shield/platformencryption/util/KeyRepresentation.java:66-69 | for a kid without a double quote, the kid and the JWE can be read back from the frame |
| Envelope.QuotedKidIsAmbiguous | src/main/java/com/salesforce/shield/platformencryption/util/KeyRepresentation.java:67 | because the kid is not escaped, two different (kid, jwe) pairs print as the same envelope |
| Envelope.RenderedReadBack | src/main/java/com/salesforce/shield/platformencryption/util/KeyRepresentation.java:46-70 | an envelope's text reads back to its kid and its JWE, or to `null` when the JOSE step failed |
| Envelope.KeyRepresentation.constructor | src/main/java/com/salesforce/shield/platformencryption/util/KeyRepresentation.java:23-27 | the three fields hold the given values |
| Envelope.KeyRepresentation.SetKid | src/main/java/com/salesforce/shield/platformencryption/util/KeyRepresentation.java:29-31 | the kid changes; the key and the wrapping key do not |
| Envelope.KeyRepresentation.SetKey | src/main/java/com/salesforce/shield/platformencryption/util/KeyRepresentation.java:33-35 | the key changes; the kid and the wrapping key do not |
| Envelope.KeyRepresentation.SetWrappingKey | src/main/java/com/salesforce/shield/platformencryption/util/KeyRepresentation.java:37-39 | the wrapping key changes; the kid and the key do not |
| Envelope.KeyRepresentation.GetKid | src/main/java/com/salesforce/shield/platformencryption/util/KeyRepresentation.java:41-43 | the current kid |
| Envelope.KeyRepresentation.GetJwe | src/main/java/com/salesforce/shield/platformencryption/util/KeyRepresentation.java:46-61 | the JOSE result for header alg RSA-OAEP, enc A256GCM, kid = the current kid, with the key field as plaintext to the wrapping key field; `None` on `JoseException` |
| Envelope.KeyRepresentation.ToString | src/main/java/com/salesforce/shield/platformencryption/util/KeyRepresentation.java:65-70 | exactly the frame around the current kid and that JWE, with `null` when it failed |
| WrapEncryptionKey.ExceptionMessage | src/main/java/com/salesforce/shield/platformencryption/cli/WrapEncryptionKey.java:67-106 | every rejection is thrown with a non-empty message |
| WrapEncryptionKey.MessagesTellErrorsApart | src/main/java/com/salesforce/shield/platformencryption/cli/WrapEncryptionKey.java:67-106 | two rejections print the same message exactly when they are the same check; only the hex decoder's two faults share one |
| WrapEncryptionKey.Message | src/main/java/com/salesforce/shield/platformencryption/cli/WrapEncryptionKey.java:150-155 | every error prints `ERROR: ` and its message, except an unreadable certificate, which prints a stack trace |
| WrapEncryptionKey.UserKey | src/main/java/com/salesforce/shield/platformencryption/cli/WrapEncryptionKey.java:77-87 | accepted iff it hex-decodes to exactly 32 bytes (so it is 64 characters); not-hex iff it does not decode; otherwise too short or too long |
| WrapEncryptionKey.UserKeyAcceptsHexKey | src/main/java/com/salesforce/shield/platformencryption/cli/WrapEncryptionKey.java:80-84 | the hex of any 32-byte key is accepted as that key |
| WrapEncryptionKey.UserKeyIgnoresCase | src/main/java/com/salesforce/shield/platformencryption/cli/WrapEncryptionKey.java:80-84 | a 32-byte key given in upper-case hex, or any mix of cases, is accepted as that same key |
| WrapEncryptionKey.ValidateSplit | src/main/java/com/salesforce/shield/platformencryption/cli/WrapEncryptionKey.java:94-108 | accepted iff -n and -k are both given, 2 ≤ n ≤ 10 and 1 < k ≤ n, giving a scheme the library accepts; each rejection in the order the checks are made |
| WrapEncryptionKey.SplitSecret | src/main/java/com/salesforce/shield/platformencryption/cli/WrapEncryptionKey.java:124-129 | the secret handed to the splitter is one byte per hex character of the key, the character's code (64 bytes for a 32-byte key) |
| WrapEncryptionKey.SplitSecretIsHexText | src/main/java/com/salesforce/shield/platformencryption/cli/WrapEncryptionKey.java:124-129 | read back as text the split secret is the key's hex, and it decodes to the key |
| WrapEncryptionKey.SplitHeader | src/main/java/com/salesforce/shield/platformencryption/cli/WrapEncryptionKey.java:130 | the header is its fixed words with the text of `k`, then of `n`, in their places |
| WrapEncryptionKey.SplitHeaderNamesNK | src/main/java/com/salesforce/shield/platformencryption/cli/WrapEncryptionKey.java:130 | the two numbers in the header read back as `k` and `n` |
| WrapEncryptionKey.ExampleCommandAsWritten | src/main/java/com/salesforce/shield/platformencryption/cli/WrapEncryptionKey.java:137 | the example command exists iff there are at least three parts; it is `./RecoverSplitEncryptionKey -n <n> -k <k> -p` with the decimal texts of n and k, followed by `parts[2]` and `parts[0]` |
| WrapEncryptionKey.ExampleCommand | src/main/java/com/salesforce/shield/platformencryption/cli/WrapEncryptionKey.java:137 | the corrected example names `k` parts: the last, then the first `k - 1` |
| WrapEncryptionKey.TwoPartExampleOverruns | src/main/java/com/salesforce/shield/platformencryption/cli/WrapEncryptionKey.java:99-137 | n = k = 2 passes validation, yields two parts, and the written example reads past them |
| WrapEncryptionKey.ExampleNamesTooFewParts | src/main/java/com/salesforce/shield/platformencryption/cli/WrapEncryptionKey.java:102-137 | n = k = 3 passes validation and the written example names only two parts |
| WrapEncryptionKey.ExampleAgreesOnDefaults | src/main/java/com/salesforce/shield/platformencryption/cli/WrapEncryptionKey.java:137 | for the defaults n = 3, k = 2 the corrected example is the written one |
| WrapEncryptionKey.ExampleCommandReadsBack | src/main/java/com/salesforce/shield/platformencryption/cli/WrapEncryptionKey.java:137 | for every accepted n, k the corrected example's parts read back to k distinct shares of the split: share n and shares 1..k-1 |
| WrapEncryptionKey.WrapOutcome | src/main/java/com/salesforce/shield/platformencryption/cli/WrapEncryptionKey.java:31-162 | help iff -h or no option; a missing certificate, then an unreadable one, stop first; the kid is -i or the UUID; the envelope wraps a 32-byte key (the -b key, or the generated one) to the certificate's key; a -b key is never disclosed; a generated key is shown as its hex, or with -s split as the UTF-8 of its hex into parts numbered by validated n, k, under the header naming k and n; a rejected -b key fails with `UserKey`'s error and rejected -n/-k with `ValidateSplit`'s; with a readable certificate the run completes exactly when neither is rejected |
| WrapEncryptionKey.Run | src/main/java/com/salesforce/shield/platformencryption/cli/WrapEncryptionKey.java:31-162 | the step-by-step `main`, with its reassigned locals, early exits, `SSSUtils` object and printing loop, ends exactly as `WrapOutcome` |
| WrapEncryptionKey.ShowSplit | src/main/java/com/salesforce/shield/platformencryption/cli/WrapEncryptionKey.java:124-137 | the disclosure of a split: the header, the parts of the library's shares of the key's hex bytes in slot order, then the example command as line 137 writes it, or its crash |
| WrapEncryptionKey.UserKeyIgnoresSplitOptions | src/main/java/com/salesforce/shield/platformencryption/cli/WrapEncryptionKey.java:77-110 | with -b, the options -s, -n and -k change nothing: they are neither validated nor used |
| WrapEncryptionKey.PrintedPartsRecoverKey | src/main/java/com/salesforce/shield/platformencryption/cli/WrapEncryptionKey.java:122-133 | the printed parts read back to exactly the library's shares (validation keeps n ≤ 10); with an inverting `join` they recover the split secret, whose text hex-decodes to the key |
| WrapEncryptionKey.ExampleCrashesExactlyForTwoParts | src/main/java/com/salesforce/shield/platformencryption/cli/WrapEncryptionKey.java:94-137 | in a run that splits the key, the printed example command crashes exactly when n = 2; otherwise it names `parts[2]` and `parts[0]` |
| WrapEncryptionKey.TwoPartRunCrashes | src/main/java/com/salesforce/shield/platformencryption/cli/WrapEncryptionKey.java:94-137 | `-c cert.pem -s -n 2 -k 2` passes every check, writes the envelope and prints both parts, then crashes at the example command |

## Left out

- Shamir arithmetic (GF(2^8) polynomials and interpolation) lives in the external `com.codahale.shamir` library. It is not part of this model: `split` and `join` are function values. Only the numbering of split's shares 1..n is assumed.
- The `Scheme.of` bounds check: `SecretSharing.SssUtils.constructor` requires `1 < k ≤ n ≤ 255` instead of modelling the `IllegalArgumentException`. `main` only builds it after its own stricter checks.
- Exceptions from the library's `join` (for example shares of unequal length) are not modelled.
- `split` results whose keys are not exactly 1..n are not modelled. The library promises that numbering, and without it the Java array would hold nulls or overflow.
- JOSE encryption (jose4j) is the function value `Jose`. The JWE's own structure (RFC 7516) is not modelled.
- `SplitFn` is a fixed function of the scheme and the secret, so it freezes the randomness that `Scheme` draws from its internal `SecureRandom`. `main` splits once per run, so no property proved here depends on that.
- The AES-CBC cipher, `SecureRandom`, `KeyGenerator` and `UUID.randomUUID` are parameters.
- `NoSuchAlgorithmException` from `KeyGenerator.getInstance` is not modelled. It does not occur on a conforming JVM.
- `CryptoUtils.Decrypt`: `decrypt` returns `new String(decrypted)` in the platform charset. The model returns the decrypted bytes.
- `DecodePart`: `Character.digit` and `Integer.parseInt` also accept non-ASCII Unicode digits. The model takes ASCII `0`–`9` only.
- `DecodeHex` has the same ASCII-only limit. It also counts the text in Unicode scalar values, where Java's `decodeHex` counts UTF-16 units. On text with a character above U+FFFF the reported fault can differ: `"\U{1F600}a"` is an odd-length failure in Java but `IllegalChar(0)` here. Whether the text is accepted does not differ. The same holds where `DecodePart`, `UserKey` and `Decrypted` decode hex.
- `Text.Utf8Char` encodes Dafny characters, which are Unicode scalar values. Java's handling of unpaired surrogates is not modelled.
- Java byte-array aliasing in `KeyRepresentation` is not modelled: the key and the public key are values (`seq<byte>`), not shared arrays.
- `CryptoUtils.ArrayCopy` requires distinct arrays. Overlapping `System.arraycopy` is not modelled; the code never copies within one array.
- Option parsing (commons-cli) is left out. This covers its `ParseException`s, the `NumberFormatException` of a non-numeric `-n` or `-k`, and whether `-s` was given with its values. `CommandLine` is the parsed result.
- Certificate parsing is the function value `CertLoader`.
- The envelope file is not written by the model. `Completed` carries its name (the kid) and its text, which is written UTF-8 encoded. An `IOException` while writing it is not modelled.
- Console lines other than the ones in `Outcome` are not modelled. They are the help text, "Generating 256 bit AES Key" (WrapEncryptionKey.java:91), "Wrapping user specfied AES key" (line 84), the file-written notice (line 119), the empty lines (lines 118, 120, 135 and 138), "For example, you can use the following command: " (line 136), and `getJwe`'s printing of a `JoseException` (KeyRepresentation.java:58), whose effect the model keeps only as the `None` result. The example command is given word by word; the console joins the words with single spaces.
- The `ArrayIndexOutOfBoundsException` at line 137 is not a separate outcome: `Completed` records that the envelope was written and the parts were printed, and the missing example command stands for the crash that follows.
- `RecoverSplitEncryptionKey`, `WrapAWSEncryptionKey` (an AWS KMS client) and `CryptoException` are not part of this model. The errors `CryptoException` carries are the `CryptoError` and `CliError` datatypes.

## Findings

| source | as written | input that shows it | evidently intended | confidence | as-written member | corrected member |
|---|---|---|---|---|---|---|
| src/main/java/com/salesforce/shield/platformencryption/cli/WrapEncryptionKey.java:137 | the example command reads `parts[2]` | `-c cert.pem -s -n 2 -k 2`: validation at lines 99-106 accepts n = 2 and two parts are printed; `parts[2]` then throws ArrayIndexOutOfBoundsException | an example naming parts that exist for every accepted n | high; not executed | WrapEncryptionKey.ExampleCommandAsWritten | WrapEncryptionKey.ExampleCommand |
| src/main/java/com/salesforce/shield/platformencryption/cli/WrapEncryptionKey.java:137 | the example command always names two parts | `-c cert.pem -s -n 3 -k 3`: the command names two parts, fewer than the threshold k = 3, so joining them cannot give the key back | an example naming k parts, enough to recover the key | medium; not executed | WrapEncryptionKey.ExampleCommandAsWritten | WrapEncryptionKey.ExampleCommand |

=== FILE: crypto_utils.dfy ===
/**
 * `CryptoUtils`: the byte layout around AES-CBC. Encryption draws a 16-byte
 * IV, puts it in front of the cipher output and hex-encodes the whole;
 * decryption hex-decodes, takes the first 16 bytes as the IV and the rest as
 * the cipher text. The block cipher (`Cipher` with "AES/CBC/PKCS5Padding"),
 * `SecureRandom` and `KeyGenerator` are foreign: the cipher is a function
 * value, the random bytes are parameters.
 */
module CryptoUtils {
  import opened Wrappers
  import opened Hex
  import Text

  const AesBitLength: int := 256
  const IvSize: int := 16

  /**
   * One JCE cipher call (`init` then `doFinal`) under a key and an IV;
   * `None` when it throws (bad key length, bad padding, ...).
   */
  type CipherFn = (seq<byte>, seq<byte>, seq<byte>) -> Option<seq<byte>>

  /** What the `CryptoException` thrown by these operations wraps. */
  datatype CryptoError =
    | NotHex(cause: HexError)   // `Hex.decodeHex` threw DecoderException
    | ShorterThanIv             // `System.arraycopy` threw IndexOutOfBoundsException
    | CipherFailed              // the cipher threw

  /** `System.arraycopy` between two distinct arrays. */
  method ArrayCopy(src: array<byte>, srcPos: int, dest: array<byte>, destPos: int, length: int)
    requires src != dest
    requires 0 <= srcPos && 0 <= destPos && 0 <= length
    requires srcPos + length <= src.Length && destPos + length <= dest.Length
    modifies dest
    ensures forall j :: destPos <= j < destPos + length ==> dest[j] == src[srcPos + (j - destPos)]
    ensures forall j :: 0 <= j < dest.Length && !(destPos <= j < destPos + length) ==> dest[j] == old(dest[j])
  {
    var i := 0;
    while i < length
      invariant 0 <= i <= length
      invariant forall j :: destPos <= j < destPos + i ==> dest[j] == src[srcPos + (j - destPos)]
      invariant forall j :: 0 <= j < dest.Length && !(destPos <= j < destPos + i) ==> dest[j] == old(dest[j])
    {
      dest[destPos + i] := src[srcPos + i];
      i := i + 1;
    }
  }

  /** `SecureRandom.nextBytes`: fills the array with the drawn bytes. */
  method NextBytes(bytes: array<byte>, drawn: seq<byte>)
    requires |drawn| == bytes.Length
    modifies bytes
    ensures bytes[..] == drawn
  {
    for i := 0 to bytes.Length
      invariant bytes[..i] == drawn[..i]
    {
      bytes[i] := drawn[i];
    }
  }

  /**
   * `encrypt(byte[], byte[])`: the hex text of IV followed by cipher text.
   * `ivBytes` are the 16 bytes the fresh `SecureRandom` produces.
   */
  method Encrypt(key: seq<byte>, cleartext: seq<byte>, ivBytes: seq<byte>, cipher: CipherFn)
    returns (r: Result<string, CryptoError>)
    requires |ivBytes| == IvSize
    ensures cipher(key, ivBytes, cleartext).None? ==> r == Failure(CipherFailed)
    ensures cipher(key, ivBytes, cleartext).Some? ==>
      r == Success(EncodeHex(ivBytes + cipher(key, ivBytes, cleartext).value))
  {
    var ivSize := IvSize;
    var iv := new byte[ivSize];
    NextBytes(iv, ivBytes);
    var result := cipher(key, iv[..], cleartext);
    if result.None? {
      return Failure(CipherFailed);
    }
    var ct := result.value;
    var encrypted := new byte[|ct|](i requires 0 <= i < |ct| => ct[i]);
    var encryptedIVAndText := new byte[ivSize + encrypted.Length];
    ArrayCopy(iv, 0, encryptedIVAndText, 0, ivSize);
    ArrayCopy(encrypted, 0, encryptedIVAndText, ivSize, encrypted.Length);
    assert encryptedIVAndText[..] == ivBytes + ct;
    r := Success(EncodeHex(encryptedIVAndText[..]));
  }

  /** `encrypt(byte[], String)`: encrypts the UTF-8 bytes of the text. */
  method EncryptText(key: seq<byte>, cleartext: string, ivBytes: seq<byte>, cipher: CipherFn)
    returns (r: Result<string, CryptoError>)
    requires |ivBytes| == IvSize
    ensures var bytes := Text.Utf8Encode(cleartext);
      && (cipher(key, ivBytes, bytes).None? ==> r == Failure(CipherFailed))
      && (cipher(key, ivBytes, bytes).Some? ==>
            r == Success(EncodeHex(ivBytes + cipher(key, ivBytes, bytes).value)))
  {
    r := Encrypt(key, Text.Utf8Encode(cleartext), ivBytes, cipher);
  }

  /** How `decrypt` cuts the decoded bytes: the first 16 are the IV, the rest the cipher text. */
  function SplitIv(bytes: seq<byte>): (r: Option<(seq<byte>, seq<byte>)>)
    ensures r.Some? <==> |bytes| >= IvSize
    ensures r.Some? ==> |r.value.0| == IvSize && r.value.0 + r.value.1 == bytes
  {
    if |bytes| < IvSize then None else Some((bytes[..IvSize], bytes[IvSize..]))
  }

  /** What `decrypt` returns (before the bytes are turned into a `String`). */
  function Decrypted(key: seq<byte>, hexText: string, decipher: CipherFn): (r: Result<seq<byte>, CryptoError>)
    ensures r.Failure? && r.error.NotHex? <==> DecodeHex(hexText).Failure?
    ensures r == Failure(ShorterThanIv) <==>
      DecodeHex(hexText).Success? && |DecodeHex(hexText).value| < IvSize
    ensures DecodeHex(hexText).Success? && |DecodeHex(hexText).value| >= IvSize ==>
      var b := DecodeHex(hexText).value;
      && (r == Failure(CipherFailed) <==> decipher(key, b[..IvSize], b[IvSize..]).None?)
      && (r.Success? <==> decipher(key, b[..IvSize], b[IvSize..]).Some?)
      && (r.Success? ==> decipher(key, b[..IvSize], b[IvSize..]) == Some(r.value))
  {
    match DecodeHex(hexText)
    case Failure(e) => Failure(NotHex(e))
    case Success(bytes) =>
      match SplitIv(bytes)
      case None => Failure(ShorterThanIv)
      case Some(parts) =>
        match decipher(key, parts.0, parts.1)
        case None => Failure(CipherFailed)
        case Some(plain) => Success(plain)
  }

  /** `decrypt`: hex-decode, copy out the IV and the cipher text, decipher. */
  method Decrypt(key: seq<byte>, hexEncodedCiphertext: string, decipher: CipherFn)
    returns (r: Result<seq<byte>, CryptoError>)
    ensures r == Decrypted(key, hexEncodedCiphertext, decipher)
  {
    var decoded := DecodeHex(hexEncodedCiphertext);
    if decoded.Failure? {
      return Failure(NotHex(decoded.error));
    }
    var bytes := decoded.value;
    var cipherTextBytes := new byte[|bytes|](i requires 0 <= i < |bytes| => bytes[i]);
    var ivSize := IvSize;
    var iv := new byte[ivSize];
    if cipherTextBytes.Length < iv.Length {
      return Failure(ShorterThanIv);
    }
    ArrayCopy(cipherTextBytes, 0, iv, 0, iv.Length);
    var encryptedSize := cipherTextBytes.Length - ivSize;
    var encryptedBytes := new byte[encryptedSize];
    ArrayCopy(cipherTextBytes, ivSize, encryptedBytes, 0, encryptedSize);
    assert iv[..] == bytes[..IvSize];
    assert encryptedBytes[..] == bytes[IvSize..];
    var decrypted := decipher(key, iv[..], encryptedBytes[..]);
    if decrypted.None? {
      return Failure(CipherFailed);
    }
    r := Success(decrypted.value);
  }

  /**
   * The framing round trip: the text `encrypt` produces decodes to exactly
   * the bytes it framed, `2 * (16 + |cipher text|)` hex characters long, and
   * `decrypt` cuts them back into the same IV and cipher text.
   */
  lemma FrameRoundTrip(iv: seq<byte>, ct: seq<byte>)
    requires |iv| == IvSize
    ensures |EncodeHex(iv + ct)| == 2 * (IvSize + |ct|)
    ensures DecodeHex(EncodeHex(iv + ct)) == Success(iv + ct)
    ensures SplitIv(iv + ct) == Some((iv, ct))
  {
    DecodeEncode(iv + ct);
    assert (iv + ct)[..IvSize] == iv && (iv + ct)[IvSize..] == ct;
  }

  /** Decrypting what was encrypted gives the clear text back, whenever the cipher itself inverts. */
  lemma DecryptAfterEncrypt(key: seq<byte>, cleartext: seq<byte>, iv: seq<byte>, cipher: CipherFn, decipher: CipherFn)
    requires |iv| == IvSize
    requires cipher(key, iv, cleartext).Some?
    requires decipher(key, iv, cipher(key, iv, cleartext).value) == Some(cleartext)
    ensures Decrypted(key, EncodeHex(iv + cipher(key, iv, cleartext).value), decipher) == Success(cleartext)
  {
    FrameRoundTrip(iv, cipher(key, iv, cleartext).value);
  }

  /** `generateAESKey`: a key of `AES_BIT_LENGTH` bits, drawn from the generator's randomness. */
  method GenerateAesKey(random: seq<byte>) returns (key: seq<byte>)
    requires |random| >= AesBitLength / 8
    ensures 8 * |key| == AesBitLength
    ensures key == random[..|key|]
  {
    key := random[..AesBitLength / 8];
  }
}

=== FILE: hex.dfy ===
/**
 * Base16 ("hex") text as the repository's code produces and consumes it
 * (Apache commons-codec `Hex.encodeHexString` / `Hex.decodeHex`): the base16
 * alphabet of section 8 of RFC 4648, emitted in lower case; decoding accepts
 * both cases, rejects an odd number of characters before looking at any of
 * them, and otherwise reports the first character that is not a hex digit.
 */
module Hex {
  import opened Wrappers

  /** An unsigned byte. Java's signed `byte` is read through `& 0xFF` by the codec. */
  type byte = b: int | 0 <= b < 256

  const LowerDigits: string := "0123456789abcdef"

  predicate IsHexChar(c: char) {
    '0' <= c <= '9' || 'a' <= c <= 'f' || 'A' <= c <= 'F'
  }

  predicate IsLowerHexChar(c: char) {
    '0' <= c <= '9' || 'a' <= c <= 'f'
  }

  predicate IsLowerHex(s: string) {
    forall i :: 0 <= i < |s| ==> IsLowerHexChar(s[i])
  }

  /** ASCII lower-casing: capitals `A`..`Z` become `a`..`z`, everything else stays. */
  function AsciiLower(c: char): char {
    if 'A' <= c <= 'Z' then (c as int - 'A' as int + 'a' as int) as char else c
  }

  /** The value of one hex digit, either case. */
  function DigitValue(c: char): (v: int)
    requires IsHexChar(c)
    ensures 0 <= v < 16
  {
    if '0' <= c <= '9' then c as int - '0' as int
    else if 'a' <= c <= 'f' then c as int - 'a' as int + 10
    else c as int - 'A' as int + 10
  }

  /** A digit of either case is worth its position in the lower-case alphabet. */
  lemma DigitPosition(c: char)
    requires IsHexChar(c)
    ensures LowerDigits[DigitValue(c)] == AsciiLower(c)
  {
  }

  /** The lower-case digit for a nibble; `DigitValue` reads it back. */
  function Digit(v: int): (c: char)
    requires 0 <= v < 16
    ensures IsLowerHexChar(c) && DigitValue(c) == v
  {
    LowerDigits[v]
  }

  /** Two characters per byte, high nibble first. */
  function EncodeHex(bs: seq<byte>): (s: string)
    ensures |s| == 2 * |bs|
    ensures IsLowerHex(s)
  {
    seq(2 * |bs|, i requires 0 <= i < 2 * |bs| =>
      if i % 2 == 0 then Digit(bs[i / 2] / 16) else Digit(bs[i / 2] % 16))
  }

  /** The two ways `Hex.decodeHex` throws `DecoderException`. */
  datatype HexError = OddLength | IllegalChar(index: nat)

  function DecodeHex(s: string): (r: Result<seq<byte>, HexError>)
    ensures r.Success? <==> |s| % 2 == 0 && forall i :: 0 <= i < |s| ==> IsHexChar(s[i])
    ensures r.Success? ==> 2 * |r.value| == |s|
    ensures r == Failure(OddLength) <==> |s| % 2 == 1
    ensures r.Failure? && r.error.IllegalChar? ==>
      && r.error.index < |s|
      && !IsHexChar(s[r.error.index])
      && forall i :: 0 <= i < r.error.index ==> IsHexChar(s[i])
  {
    if |s| % 2 == 1 then Failure(OddLength) else DecodeFrom(s, 0)
  }

  /** Decodes the pairs of `s` from position `from` on, in order. */
  function DecodeFrom(s: string, from: nat): (r: Result<seq<byte>, HexError>)
    requires from <= |s| && (|s| - from) % 2 == 0
    ensures r.Success? <==> forall i :: from <= i < |s| ==> IsHexChar(s[i])
    ensures r.Success? ==> 2 * |r.value| == |s| - from
    ensures r.Failure? ==>
      && r.error.IllegalChar?
      && from <= r.error.index < |s|
      && !IsHexChar(s[r.error.index])
      && forall i :: from <= i < r.error.index ==> IsHexChar(s[i])
    decreases |s| - from
  {
    if from == |s| then Success([])
    else if !IsHexChar(s[from]) then Failure(IllegalChar(from))
    else if !IsHexChar(s[from + 1]) then Failure(IllegalChar(from + 1))
    else
      match DecodeFrom(s, from + 2)
      case Failure(e) => Failure(e)
      case Success(rest) => Success([16 * DigitValue(s[from]) + DigitValue(s[from + 1])] + rest)
  }

  /** Byte `j` of a successful decode is the pair at `from + 2j`. */
  lemma {:induction false} DecodeFromAt(s: string, from: nat, j: nat)
    requires from <= |s| && (|s| - from) % 2 == 0
    requires DecodeFrom(s, from).Success? && j < |DecodeFrom(s, from).value|
    ensures IsHexChar(s[from + 2 * j]) && IsHexChar(s[from + 2 * j + 1])
    ensures DecodeFrom(s, from).value[j] ==
      16 * DigitValue(s[from + 2 * j]) + DigitValue(s[from + 2 * j + 1])
    decreases j
  {
    if j > 0 {
      DecodeFromAt(s, from + 2, j - 1);
    }
  }

  /** Decoding undoes encoding. */
  lemma DecodeEncode(bs: seq<byte>)
    ensures DecodeHex(EncodeHex(bs)) == Success(bs)
  {
    var s := EncodeHex(bs);
    assert forall i :: 0 <= i < |s| ==> IsHexChar(s[i]) by {
      assert IsLowerHex(s);
    }
    var r := DecodeHex(s);
    assert r.Success? && |r.value| == |bs|;
    forall j | 0 <= j < |bs|
      ensures r.value[j] == bs[j]
    {
      DecodedByteOfEncoding(bs, j);
    }
    assert r.value == bs;
  }

  /** Byte `j` of decoding the hex of `bs` is `bs[j]`. */
  lemma DecodedByteOfEncoding(bs: seq<byte>, j: nat)
    requires j < |bs| && DecodeHex(EncodeHex(bs)).Success?
    requires |DecodeHex(EncodeHex(bs)).value| == |bs|
    ensures DecodeHex(EncodeHex(bs)).value[j] == bs[j]
  {
    var s := EncodeHex(bs);
    assert (2 * j) % 2 == 0 && (2 * j) / 2 == j;
    assert (2 * j + 1) % 2 == 1 && (2 * j + 1) / 2 == j;
    assert s[2 * j] == Digit(bs[j] / 16);
    assert s[2 * j + 1] == Digit(bs[j] % 16);
    DecodedPairAt(s, j);
    PairDecodes(bs[j], s[2 * j], s[2 * j + 1]);
  }

  /** The two digits `EncodeHex` writes for a byte give that byte back. */
  lemma PairDecodes(b: byte, hi: char, lo: char)
    requires hi == Digit(b / 16) && lo == Digit(b % 16)
    ensures 16 * DigitValue(hi) + DigitValue(lo) == b
  {
  }

  /** Encoding undoes decoding on lower-case input, the only case `EncodeHex` emits. */
  lemma EncodeDecode(s: string)
    requires DecodeHex(s).Success? && IsLowerHex(s)
    ensures EncodeHex(DecodeHex(s).value) == s
  {
    var bs := DecodeHex(s).value;
    var e := EncodeHex(bs);
    forall i | 0 <= i < |s|
      ensures e[i] == s[i]
    {
      EncodedCharOfDecoding(s, i);
    }
    assert e == s;
  }

  /** Character `i` of encoding the decoding of lower-case hex `s` is `s[i]`. */
  lemma EncodedCharOfDecoding(s: string, i: nat)
    requires DecodeHex(s).Success? && IsLowerHex(s) && i < |s|
    ensures EncodeHex(DecodeHex(s).value)[i] == s[i]
  {
    var bs := DecodeHex(s).value;
    var j := i / 2;
    assert 2 * j <= i <= 2 * j + 1 && j < |bs|;
    DecodedPairAt(s, j);
    var hi, lo := DigitValue(s[2 * j]), DigitValue(s[2 * j + 1]);
    assert bs[j] == 16 * hi + lo;
    assert bs[j] / 16 == hi && bs[j] % 16 == lo;
    LowerDigitRoundTrip(s[2 * j]);
    LowerDigitRoundTrip(s[2 * j + 1]);
    if i % 2 == 0 {
      assert i == 2 * j;
      assert EncodeHex(bs)[i] == Digit(hi);
    } else {
      assert i == 2 * j + 1;
      assert EncodeHex(bs)[i] == Digit(lo);
    }
  }

  /** The text with every ASCII capital lowered. */
  function Lowered(s: string): (t: string)
    ensures |t| == |s| && forall i :: 0 <= i < |s| ==> t[i] == AsciiLower(s[i])
  {
    seq(|s|, i requires 0 <= i < |s| => AsciiLower(s[i]))
  }

  /** Decoding ignores the case of the digits: a text and its lower-cased form decode alike, faults included. */
  lemma DecodeIgnoresCase(s: string)
    ensures DecodeHex(s) == DecodeHex(Lowered(s))
  {
    var t := Lowered(s);
    forall i | 0 <= i < |s|
      ensures IsHexChar(t[i]) <==> IsHexChar(s[i])
    {
      CharIgnoresCase(s[i]);
    }
    var rs, rt := DecodeHex(s), DecodeHex(t);
    if rs.Failure? && rs.error.IllegalChar? {
      var i, j := rs.error.index, rt.error.index;
      assert !IsHexChar(t[i]);
      assert !IsHexChar(s[j]);
      assert i == j;
    } else if rs.Success? {
      DecodedPairs(s);
      DecodedPairs(t);
      forall k | 0 <= k < |s| / 2
        ensures Pairs(s)[k] == Pairs(t)[k]
      {
        PairIgnoresCase(s[2 * k], s[2 * k + 1], t[2 * k], t[2 * k + 1]);
      }
      assert Pairs(s) == Pairs(t);
    }
  }

  /** The bytes of hex text read pair by pair, high digit first. */
  function Pairs(s: string): (bs: seq<byte>)
    requires |s| % 2 == 0 && forall i :: 0 <= i < |s| ==> IsHexChar(s[i])
    ensures |bs| == |s| / 2
  {
    seq(|s| / 2, j requires 0 <= j < |s| / 2 => 16 * DigitValue(s[2 * j]) + DigitValue(s[2 * j + 1]))
  }

  /** A successful decode is the text read pair by pair. */
  lemma DecodedPairs(s: string)
    requires DecodeHex(s).Success?
    ensures DecodeHex(s).value == Pairs(s)
  {
    var r := DecodeHex(s).value;
    forall j | 0 <= j < |s| / 2
      ensures r[j] == Pairs(s)[j]
    {
      DecodedPairAt(s, j);
    }
  }

  lemma DecodedPairAt(s: string, j: nat)
    requires DecodeHex(s).Success? && j < |s| / 2
    ensures DecodeHex(s).value[j] == 16 * DigitValue(s[2 * j]) + DigitValue(s[2 * j + 1])
  {
    assert DecodeHex(s) == DecodeFrom(s, 0);
    DecodeFromAt(s, 0, j);
  }

  /** A pair of digits is worth the same byte in either case. */
  lemma PairIgnoresCase(hi: char, lo: char, hi': char, lo': char)
    requires IsHexChar(hi) && IsHexChar(lo) && hi' == AsciiLower(hi) && lo' == AsciiLower(lo)
    ensures IsHexChar(hi') && IsHexChar(lo')
    ensures 16 * DigitValue(hi') + DigitValue(lo') == 16 * DigitValue(hi) + DigitValue(lo)
  {
    CharIgnoresCase(hi);
    CharIgnoresCase(lo);
  }

  /** One character is a hex digit exactly when its lower-case form is, with the same value. */
  lemma CharIgnoresCase(c: char)
    ensures IsHexChar(AsciiLower(c)) <==> IsHexChar(c)
    ensures IsHexChar(c) ==> DigitValue(AsciiLower(c)) == DigitValue(c)
  {
  }

  lemma LowerDigitRoundTrip(c: char)
    requires IsLowerHexChar(c)
    ensures Digit(DigitValue(c)) == c
  {
  }
}

=== FILE: key_representation.dfy ===
/**
 * `KeyRepresentation`: the wrapped-key envelope. A mutable record of a key
 * identifier, the raw key and the recipient's public key; its text form is a
 * fixed two-field JSON-like frame around the identifier and a JWE compact
 * serialization (section 7.1 of RFC 7516) made with the "RSA-OAEP" key
 * management algorithm (section 4.3 of RFC 7518) and "A256GCM" content
 * encryption (section 5.3 of RFC 7518). The JOSE library call is a function
 * value.
 */
module Envelope {
  import opened Wrappers
  import opened Hex

  /** A recipient public key, by its encoded form. */
  type PublicKey = seq<byte>

  const RsaOaep: string := "RSA-OAEP"
  const A256Gcm: string := "A256GCM"

  /** The JOSE header values the tool sets. */
  datatype JweHeader = JweHeader(alg: string, enc: string, kid: string)

  /** Everything `getCompactSerialization` is given: header, recipient key, plain text. */
  datatype JweRequest = JweRequest(header: JweHeader, recipient: PublicKey, plaintext: seq<byte>)

  /** The JOSE library: the compact serialization, or `None` when it throws `JoseException`. */
  type Jose = JweRequest -> Option<string>

  const KidOpen: string := "{\"kid\" : \""
  const JweOpen: string := "\",\"jwe\" : \""
  const FrameClose: string := "\"}"

  /** The text `toString` builds around a kid and a JWE; the kid is not escaped. */
  function Frame(kid: string, jwe: string): (s: string)
    ensures |s| == |KidOpen| + |kid| + |JweOpen| + |jwe| + |FrameClose|
    ensures s[..|KidOpen|] == KidOpen && s[|KidOpen|..|KidOpen| + |kid|] == kid
    ensures s[|KidOpen| + |kid|..|KidOpen| + |kid| + |JweOpen|] == JweOpen
    ensures s[|s| - |FrameClose| - |jwe|..|s| - |FrameClose|] == jwe && s[|s| - |FrameClose|..] == FrameClose
  {
    KidOpen + kid + JweOpen + jwe + FrameClose
  }

  /** Java string concatenation of a possibly null `String`. */
  function JweText(jwe: Option<string>): (s: string)
    ensures jwe.None? ==> s == "null"
    ensures jwe.Some? ==> s == jwe.value
  {
    match jwe
    case None => "null"
    case Some(text) => text
  }

  /** Position of the first double quote in `s`, or `|s|`. */
  function FirstQuote(s: string): (q: nat)
    ensures q <= |s|
    ensures q < |s| ==> s[q] == '"'
    ensures forall i :: 0 <= i < q ==> s[i] != '"'
  {
    if s == [] then 0
    else if s[0] == '"' then 0
    else 1 + FirstQuote(s[1..])
  }

  /** Reads a frame back: the kid runs to the first quote, the JWE to the closing `"}`. */
  function ParseFrame(s: string): Option<(string, string)> {
    if |s| < |KidOpen| || s[..|KidOpen|] != KidOpen then None
    else
      var rest := s[|KidOpen|..];
      var q := FirstQuote(rest);
      var tail := rest[q..];
      if |tail| < |JweOpen| + |FrameClose| || tail[..|JweOpen|] != JweOpen
         || tail[|tail| - |FrameClose|..] != FrameClose
      then None
      else Some((rest[..q], tail[|JweOpen|..|tail| - |FrameClose|]))
  }

  /** A kid without a double quote, and any JWE text, can be read back from the frame. */
  lemma ParseFrameInverts(kid: string, jwe: string)
    requires forall i :: 0 <= i < |kid| ==> kid[i] != '"'
    ensures ParseFrame(Frame(kid, jwe)) == Some((kid, jwe))
  {
    var s := Frame(kid, jwe);
    assert s[..|KidOpen|] == KidOpen;
    var rest := s[|KidOpen|..];
    assert rest == kid + JweOpen + jwe + FrameClose;
    FirstQuoteAfter(kid, JweOpen + jwe + FrameClose);
    assert kid + JweOpen + jwe + FrameClose == kid + (JweOpen + jwe + FrameClose);
    var tail := rest[|kid|..];
    assert tail == JweOpen + jwe + FrameClose;
    assert tail[..|JweOpen|] == JweOpen;
    assert tail[|tail| - |FrameClose|..] == FrameClose;
    assert tail[|JweOpen|..|tail| - |FrameClose|] == jwe;
    assert rest[..|kid|] == kid;
  }

  lemma {:induction false} FirstQuoteAfter(prefix: string, rest: string)
    requires forall i :: 0 <= i < |prefix| ==> prefix[i] != '"'
    requires rest != [] && rest[0] == '"'
    ensures FirstQuote(prefix + rest) == |prefix|
  {
    if prefix != [] {
      assert (prefix + rest)[1..] == prefix[1..] + rest;
      FirstQuoteAfter(prefix[1..], rest);
    }
  }

  /** Because the kid is inserted verbatim, a kid holding `","jwe" : "` makes two different envelopes print alike. */
  lemma QuotedKidIsAmbiguous()
    ensures Frame("a", "b\",\"jwe\" : \"c") == Frame("a\",\"jwe\" : \"b", "c")
  {
    assert "b\",\"jwe\" : \"c" == "b" + JweOpen + "c";
    assert "a\",\"jwe\" : \"b" == "a" + JweOpen + "b";
  }

  /** The text of an envelope: the frame around the kid and the JWE of `key` to `wrappingKey`. */
  function Rendered(kid: string, key: seq<byte>, wrappingKey: PublicKey, jose: Jose): (s: string)
    ensures var jwe := jose(JweRequest(JweHeader(RsaOaep, A256Gcm, kid), wrappingKey, key));
      && (jwe.Some? ==> s == Frame(kid, jwe.value))
      && (jwe.None? ==> s == Frame(kid, "null"))
  {
    Frame(kid, JweText(jose(JweRequest(JweHeader(RsaOaep, A256Gcm, kid), wrappingKey, key))))
  }

  /**
   * The envelope's kid can be read back from its text whenever it holds no
   * double quote; the JWE field then holds the serialization, or `null` when
   * the JOSE step failed.
   */
  lemma RenderedReadBack(kid: string, key: seq<byte>, wrappingKey: PublicKey, jose: Jose)
    requires forall i :: 0 <= i < |kid| ==> kid[i] != '"'
    ensures var jwe := jose(JweRequest(JweHeader(RsaOaep, A256Gcm, kid), wrappingKey, key));
      && (jwe.Some? ==> ParseFrame(Rendered(kid, key, wrappingKey, jose)) == Some((kid, jwe.value)))
      && (jwe.None? ==> ParseFrame(Rendered(kid, key, wrappingKey, jose)) == Some((kid, "null")))
  {
    ParseFrameInverts(kid, JweText(jose(JweRequest(JweHeader(RsaOaep, A256Gcm, kid), wrappingKey, key))));
  }

  /** The literals `toString` appends make up the frame's pieces. */
  lemma FramePieces()
    ensures "{" + "\"kid\" : \"" == KidOpen
    ensures "\"," + "\"jwe\" : \"" == JweOpen
    ensures "\"}" == FrameClose
  {
  }

  /** Appending `b + x + c` and then `d + y + e` to `a`, regrouped around `x` and `y`. */
  lemma Regroup(a: string, b: string, x: string, c: string, d: string, y: string, e: string)
    ensures a + (b + x + c) + (d + y + e) == (a + b) + x + (c + d) + y + e
  {
  }

  /** The tool's `KeyRepresentation` object. */
  class KeyRepresentation {
    var kid: string
    var key: seq<byte>
    var wrappingKey: PublicKey

    constructor(kid: string, key: seq<byte>, wrappingKey: PublicKey)
      ensures this.kid == kid && this.key == key && this.wrappingKey == wrappingKey
    {
      this.kid := kid;
      this.key := key;
      this.wrappingKey := wrappingKey;
    }

    method SetKid(kid: string)
      modifies this
      ensures this.kid == kid
      ensures key == old(key) && wrappingKey == old(wrappingKey)
    {
      this.kid := kid;
    }

    method SetKey(key: seq<byte>)
      modifies this
      ensures this.key == key
      ensures kid == old(kid) && wrappingKey == old(wrappingKey)
    {
      this.key := key;
    }

    method SetWrappingKey(wrappingKey: PublicKey)
      modifies this
      ensures this.wrappingKey == wrappingKey
      ensures kid == old(kid) && key == old(key)
    {
      this.wrappingKey := wrappingKey;
    }

    method GetKid() returns (r: string)
      ensures r == kid
    {
      r := kid;
    }

    /** `getJwe`: configure the JOSE object field by field, then serialize; `None` stands for the `null` returned on `JoseException`. */
    method GetJwe(jose: Jose) returns (r: Option<string>)
      ensures r == jose(JweRequest(JweHeader(RsaOaep, A256Gcm, kid), wrappingKey, key))
    {
      var jwe := JweRequest(JweHeader("", "", ""), [], []);
      jwe := jwe.(header := jwe.header.(alg := RsaOaep));
      jwe := jwe.(header := jwe.header.(enc := A256Gcm));
      jwe := jwe.(header := jwe.header.(kid := kid));
      jwe := jwe.(recipient := wrappingKey);
      jwe := jwe.(plaintext := key);
      r := jose(jwe);
    }

    /** `toString`: the frame, appended piece by piece; a failed JWE shows as the text `null`. */
    method ToString(jose: Jose) returns (s: string)
      ensures s == Rendered(kid, key, wrappingKey, jose)
    {
      var buffer := "{";
      buffer := buffer + ("\"kid\" : \"" + kid + "\",");
      var jwe := GetJwe(jose);
      buffer := buffer + ("\"jwe\" : \"" + JweText(jwe) + "\"}");
      FramePieces();
      Regroup("{", "\"kid\" : \"", kid, "\",", "\"jwe\" : \"", JweText(jwe), "\"}");
      s := buffer;
    }
  }
}

=== FILE: secret_sharing.dfy ===
/**
 * `SSSUtils`: the printable "part" form of Shamir shares. The splitting and
 * joining arithmetic belongs to the external `com.codahale.shamir` library and
 * is represented by two function values; what is modelled is how the tool
 * turns the library's share map into an array of part strings and back:
 * a part is the decimal text of (share number - 1) followed by the lower-case
 * hex of the share's payload.
 */
module SecretSharing {
  import opened Wrappers
  import opened Hex
  import Text

  /** The `n` (number of shares) and `k` (threshold) of a library `Scheme`. */
  datatype Scheme = Scheme(n: int, k: int)

  /** `Scheme.split`: share number to share payload. */
  type SplitFn = (Scheme, seq<byte>) -> map<int, seq<byte>>

  /** `Scheme.join`: the secret interpolated from some numbered shares. */
  type JoinFn = (Scheme, map<int, seq<byte>>) -> seq<byte>

  /** The shares are numbered exactly 1..n. */
  ghost predicate NumberedOneTo(shares: map<int, seq<byte>>, n: int) {
    forall p {:trigger p in shares} :: p in shares <==> 1 <= p <= n
  }

  /** The library's bounds on a scheme, checked by `Scheme.of`. */
  predicate ValidScheme(scheme: Scheme) {
    1 < scheme.k <= scheme.n <= 255
  }

  /** What the library promises of `split`: one share for each number 1..n. */
  ghost predicate NumbersSharesOneToN(split: SplitFn) {
    forall scheme: Scheme, secret: seq<byte> {:trigger split(scheme, secret)} ::
      ValidScheme(scheme) ==> NumberedOneTo(split(scheme, secret), scheme.n)
  }

  // ----- one part -----

  /** The part string for share `number`: `(number - 1)` in decimal, then the payload in hex. */
  function EncodePart(number: int, payload: seq<byte>): (s: string)
    requires number >= 1
    ensures number <= 10 ==> |s| == 1 + 2 * |payload| && s[0] == Text.DigitChar(number - 1)
    ensures number > 10 ==> |s| >= 2 + 2 * |payload|
  {
    Text.Decimal(number - 1) + EncodeHex(payload)
  }

  /** Why one part string cannot be read. */
  datatype PartFault =
    | EmptyPart                       // `substring(0, 1)` throws StringIndexOutOfBoundsException
    | IndexNotDigit                   // `Integer.parseInt` throws NumberFormatException
    | PayloadNotHex(cause: HexError)  // `Hex.decodeHex` throws DecoderException

  /** A fault, with the position in the argument array of the part that caused it. */
  datatype PartError = PartError(index: nat, fault: PartFault)

  /** One part string read back: first character as a digit plus one, the rest as hex. */
  function DecodePart(s: string): (r: Result<(int, seq<byte>), PartFault>)
    ensures r == Failure(EmptyPart) <==> s == []
    ensures r == Failure(IndexNotDigit) <==> s != [] && !Text.IsDecimalDigit(s[0])
    ensures r.Success? <==>
      s != [] && Text.IsDecimalDigit(s[0]) && DecodeHex(s[1..]).Success?
    ensures s != [] && Text.IsDecimalDigit(s[0]) && DecodeHex(s[1..]).Failure? ==>
      r == Failure(PayloadNotHex(DecodeHex(s[1..]).error))
    ensures r.Success? ==>
      && 1 <= r.value.0 <= 10
      && r.value.0 == s[0] as int - '0' as int + 1
      && r.value.1 == DecodeHex(s[1..]).value
      && |s| == 1 + 2 * |r.value.1|
  {
    if |s| == 0 then Failure(EmptyPart)
    else if !Text.IsDecimalDigit(s[0]) then Failure(IndexNotDigit)
    else
      match DecodeHex(s[1..])
      case Failure(e) => Failure(PayloadNotHex(e))
      case Success(payload) => Success((s[0] as int - '0' as int + 1, payload))
  }

  /** A part made for share 1..10 reads back as that share. */
  lemma PartRoundTrip(number: int, payload: seq<byte>)
    requires 1 <= number <= 10
    ensures DecodePart(EncodePart(number, payload)) == Success((number, payload))
  {
    var s := EncodePart(number, payload);
    assert s[1..] == EncodeHex(payload);
    DecodeEncode(payload);
  }

  /** Conversely, a part that reads back and is written in lower case is the part of what it reads as. */
  lemma PartReadBack(s: string)
    requires DecodePart(s).Success? && IsLowerHex(s[1..])
    ensures EncodePart(DecodePart(s).value.0, DecodePart(s).value.1) == s
  {
    var d := s[0] as int - '0' as int;
    EncodeDecode(s[1..]);
    assert Text.Decimal(d) == [s[0]];
  }

  /**
   * The single-digit form caps the round trip at share 10: the part of share
   * 11..100 starts with two digits, so the remainder after the first one has an
   * odd length and the hex decoder rejects it.
   */
  lemma TwoDigitPartIsRejected(number: int, payload: seq<byte>)
    requires 11 <= number <= 100
    ensures DecodePart(EncodePart(number, payload)) == Failure(PayloadNotHex(OddLength))
  {
    var s := EncodePart(number, payload);
    assert |Text.Decimal(number - 1)| == 2;
    assert |s[1..]| == 1 + 2 * |payload|;
  }

  // ----- the array of parts -----

  /** The array `split` fills: slot `p - 1` holds the part of share `p`. */
  function SplitParts(n: int, shares: map<int, seq<byte>>): (parts: seq<string>)
    requires 0 <= n && NumberedOneTo(shares, n)
    ensures |parts| == n
    ensures forall i :: 0 <= i < n ==> parts[i] == Text.Decimal(i) + EncodeHex(shares[i + 1])
  {
    seq(n, i requires 0 <= i < n => EncodePart(i + 1, shares[i + 1]))
  }

  /** `recover`'s loop: each part read in order and put into a map, a later share number overwriting an earlier one. */
  function ParseParts(parts: seq<string>): (r: Result<map<int, seq<byte>>, PartError>)
    ensures r.Success? <==> forall i :: 0 <= i < |parts| ==> DecodePart(parts[i]).Success?
    ensures r.Failure? ==>
      && r.error.index < |parts|
      && DecodePart(parts[r.error.index]) == Failure(r.error.fault)
      && forall i :: 0 <= i < r.error.index ==> DecodePart(parts[i]).Success?
  {
    if parts == [] then Success(map[])
    else
      var last := |parts| - 1;
      match ParseParts(parts[..last])
      case Failure(e) => Failure(e)
      case Success(provided) =>
        match DecodePart(parts[last])
        case Failure(fault) => Failure(PartError(last, fault))
        case Success(share) => Success(provided[share.0 := share.1])
  }

  /** The share number a readable part names. */
  function NumberOf(s: string): int
    requires DecodePart(s).Success?
  {
    DecodePart(s).value.0
  }

  /** The payload a readable part carries. */
  function PayloadOf(s: string): seq<byte>
    requires DecodePart(s).Success?
  {
    DecodePart(s).value.1
  }

  /** No later part names the same share as part `i`. */
  ghost predicate LastOfItsNumber(parts: seq<string>, i: int)
    requires 0 <= i < |parts|
    requires forall j :: 0 <= j < |parts| ==> DecodePart(parts[j]).Success?
  {
    forall j :: i < j < |parts| ==> NumberOf(parts[j]) != NumberOf(parts[i])
  }

  /**
   * What `recover` hands to `join` has one entry per share number that occurs
   * among the parts ...
   */
  lemma {:induction false} ParsedShareNumbers(parts: seq<string>)
    requires ParseParts(parts).Success?
    ensures forall p :: p in ParseParts(parts).value <==>
      exists i :: 0 <= i < |parts| && NumberOf(parts[i]) == p
  {
    if parts != [] {
      var last := |parts| - 1;
      var init := parts[..last];
      assert parts == init + [parts[last]];
      ParsedShareNumbers(init);
      ParsePartsSnoc(init, parts[last]);
      var m := ParseParts(init).value;
      forall p
        ensures p in ParseParts(parts).value <==> exists i :: 0 <= i < |parts| && NumberOf(parts[i]) == p
      {
        if p in m {
          var i :| 0 <= i < |init| && NumberOf(init[i]) == p;
          assert parts[i] == init[i];
        }
        if exists i :: 0 <= i < |parts| && NumberOf(parts[i]) == p {
          var i :| 0 <= i < |parts| && NumberOf(parts[i]) == p;
          if i < last {
            assert init[i] == parts[i];
          }
        }
      }
    }
  }

  /**
   * ... and for each, the payload of the LAST part naming it: a repeated share
   * number is not an error, the later part overwrites the earlier one.
   */
  lemma {:induction false} LastPartWins(parts: seq<string>)
    requires ParseParts(parts).Success?
    ensures forall i :: 0 <= i < |parts| && LastOfItsNumber(parts, i) ==>
      && NumberOf(parts[i]) in ParseParts(parts).value
      && ParseParts(parts).value[NumberOf(parts[i])] == PayloadOf(parts[i])
  {
    if parts != [] {
      var last := |parts| - 1;
      var init := parts[..last];
      assert parts == init + [parts[last]];
      LastPartWins(init);
      ParsePartsSnoc(init, parts[last]);
      forall i | 0 <= i < |parts| && LastOfItsNumber(parts, i)
        ensures && NumberOf(parts[i]) in ParseParts(parts).value
                && ParseParts(parts).value[NumberOf(parts[i])] == PayloadOf(parts[i])
      {
        if i < last {
          assert init[i] == parts[i];
          assert LastOfItsNumber(init, i) by {
            forall j | i < j < |init| ensures NumberOf(init[j]) != NumberOf(init[i]) {
              assert init[j] == parts[j];
            }
          }
        }
      }
    }
  }

  /** The parts in the slots `slots`, in that order; a slot may be picked twice. */
  function Pick(parts: seq<string>, slots: seq<int>): (picked: seq<string>)
    requires forall j :: 0 <= j < |slots| ==> 0 <= slots[j] < |parts|
    ensures |picked| == |slots|
  {
    seq(|slots|, j requires 0 <= j < |slots| => parts[slots[j]])
  }

  /**
   * Any selection of the parts `split` printed, in any order and with
   * repetitions, reads back as exactly the shares it names, while n <= 10.
   */
  lemma {:induction false} PickedPartsReadBack(n: int, shares: map<int, seq<byte>>, slots: seq<int>)
    requires 0 <= n <= 10 && NumberedOneTo(shares, n)
    requires forall j :: 0 <= j < |slots| ==> 0 <= slots[j] < n
    ensures ParseParts(Pick(SplitParts(n, shares), slots)) ==
      Success(map p | p in shares && p - 1 in slots :: shares[p])
  {
    var parts := SplitParts(n, shares);
    if slots == [] {
      assert (map p | p in shares && p - 1 in slots :: shares[p]) == map[];
    } else {
      var last := |slots| - 1;
      var init := slots[..last];
      var x := slots[last];
      PickedPartsReadBack(n, shares, init);
      PickSnoc(parts, init, x);
      PartRoundTrip(x + 1, shares[x + 1]);
      ParsePartsSnoc(Pick(parts, init), parts[x]);
      assert slots == init + [x];
      AddPickedShare(shares, init, x);
    }
  }

  lemma PickSnoc(parts: seq<string>, init: seq<int>, x: int)
    requires forall j :: 0 <= j < |init| ==> 0 <= init[j] < |parts|
    requires 0 <= x < |parts|
    ensures Pick(parts, init + [x]) == Pick(parts, init) + [parts[x]]
  {
  }

  lemma PickAll(parts: seq<string>)
    ensures Pick(parts, seq(|parts|, i => i)) == parts
  {
  }

  /** Reading one more part files its share on top of what was read before. */
  lemma ParsePartsSnoc(parts: seq<string>, s: string)
    requires ParseParts(parts).Success? && DecodePart(s).Success?
    ensures ParseParts(parts + [s]) ==
      Success(ParseParts(parts).value[DecodePart(s).value.0 := DecodePart(s).value.1])
  {
    assert (parts + [s])[..|parts|] == parts;
  }

  /** Picking slot `x` after `init` adds share `x + 1` to the shares named. */
  lemma AddPickedShare(shares: map<int, seq<byte>>, init: seq<int>, x: int)
    requires x + 1 in shares
    ensures (map p | p in shares && p - 1 in init :: shares[p])[x + 1 := shares[x + 1]] ==
      map p | p in shares && p - 1 in init + [x] :: shares[p]
  {
  }

  /** The round trip: all the parts `split` produces read back as the library's share map. */
  lemma SplitPartsReadBack(n: int, shares: map<int, seq<byte>>)
    requires 0 <= n <= 10 && NumberedOneTo(shares, n)
    ensures ParseParts(SplitParts(n, shares)) == Success(shares)
  {
    var parts := SplitParts(n, shares);
    var slots := seq(n, i => i);
    PickedPartsReadBack(n, shares, slots);
    PickAll(parts);
    EverySlotPicked(n, shares);
  }

  lemma EverySlotPicked(n: int, shares: map<int, seq<byte>>)
    requires 0 <= n && NumberedOneTo(shares, n)
    ensures (map p | p in shares && p - 1 in seq(n, i => i) :: shares[p]) == shares
  {
    var slots := seq(n, i => i);
    forall p | p in shares ensures p - 1 in slots {
      assert slots[p - 1] == p - 1;
    }
  }

  /** `recover`'s result: the first unreadable part's error, or `join` of the shares read. */
  function Recovered(scheme: Scheme, join: JoinFn, parts: seq<string>): (r: Result<seq<byte>, PartError>)
    ensures r.Success? <==> ParseParts(parts).Success?
    ensures r.Failure? ==> r.error == ParseParts(parts).error
    ensures r.Success? ==> r.value == join(scheme, ParseParts(parts).value)
  {
    match ParseParts(parts)
    case Failure(e) => Failure(e)
    case Success(provided) => Success(join(scheme, provided))
  }

  /**
   * End to end: recovering from the parts of a split gives back the secret
   * whenever the library's `join` inverts its `split` on that secret.
   */
  lemma RecoverAfterSplit(scheme: Scheme, split: SplitFn, join: JoinFn, secret: seq<byte>)
    requires ValidScheme(scheme) && scheme.n <= 10
    requires NumberedOneTo(split(scheme, secret), scheme.n)
    requires join(scheme, split(scheme, secret)) == secret
    ensures Recovered(scheme, join, SplitParts(scheme.n, split(scheme, secret))) == Success(secret)
  {
    SplitPartsReadBack(scheme.n, split(scheme, secret));
  }

  /** A non-empty set of share numbers has a member. */
  lemma NonEmptyHasMember(numbers: set<int>)
    requires numbers != {}
    ensures exists p :: p in numbers
  {
    if forall p :: p !in numbers {
      assert false;
    }
  }

  /** The tool's `SSSUtils` object: a scheme together with the library operations bound to it. */
  class SssUtils {
    const scheme: Scheme
    const split: SplitFn
    const join: JoinFn

    ghost predicate Valid() {
      ValidScheme(scheme)
    }

    /** `new SSSUtils(n, k)`, i.e. `Scheme.of(n, k)`. */
    constructor(n: int, k: int, split: SplitFn, join: JoinFn)
      requires 1 < k <= n <= 255
      ensures Valid()
      ensures scheme == Scheme(n, k) && this.split == split && this.join == join
    {
      scheme := Scheme(n, k);
      this.split := split;
      this.join := join;
    }

    /**
     * Splits the secret with the library and files each share's part in slot
     * (number - 1), visiting the share numbers in whatever order the map yields.
     */
    method Split(secret: seq<byte>) returns (parts: array<string>)
      requires Valid()
      requires NumberedOneTo(split(scheme, secret), scheme.n)
      ensures fresh(parts)
      ensures parts[..] == SplitParts(scheme.n, split(scheme, secret))
    {
      var shares := split(scheme, secret);
      parts := new string[scheme.n];
      var pending := shares.Keys;
      while pending != {}
        invariant pending <= shares.Keys
        invariant forall i :: 0 <= i < parts.Length && i + 1 !in pending ==>
          parts[i] == EncodePart(i + 1, shares[i + 1])
        decreases pending
      {
        NonEmptyHasMember(pending);
        var part :| part in pending;
        var index := part - 1;
        var secretPart := EncodeHex(shares[part]);
        var structuredPart := Text.Decimal(index) + secretPart;
        parts[index] := structuredPart;
        pending := pending - {part};
      }
    }

    /** Reads each part in order into a share map and joins it. */
    method Recover(parts: array<string>) returns (r: Result<seq<byte>, PartError>)
      ensures r == Recovered(scheme, join, parts[..])
    {
      var providedParts: map<int, seq<byte>> := map[];
      for i := 0 to parts.Length
        invariant ParseParts(parts[..i]) == Success(providedParts)
      {
        assert parts[..i + 1][..i] == parts[..i];
        if |parts[i]| == 0 {
          return Failure(PartError(i, EmptyPart));
        }
        var pos := parts[i][..1];
        var secretPart := parts[i][1..];
        if !Text.IsDecimalDigit(pos[0]) {
          return Failure(PartError(i, IndexNotDigit));
        }
        var decoded := DecodeHex(secretPart);
        if decoded.Failure? {
          return Failure(PartError(i, PayloadNotHex(decoded.error)));
        }
        providedParts := providedParts[pos[0] as int - '0' as int + 1 := decoded.value];
      }
      assert parts[..parts.Length] == parts[..];
      r := Success(join(scheme, providedParts));
    }
  }
}

=== FILE: text.dfy ===
/**
 * The two conversions from Java values to text and bytes that the tools rely
 * on: `Integer.toString` of a non-negative `int` (what `"" + i` produces) and
 * `String.getBytes(StandardCharsets.UTF_8)`.
 */
module Text {
  import opened Hex

  predicate IsDecimalDigit(c: char) {
    '0' <= c <= '9'
  }

  function DigitChar(d: int): (c: char)
    requires 0 <= d < 10
    ensures IsDecimalDigit(c) && c as int - '0' as int == d
  {
    ('0' as int + d) as char
  }

  /** Decimal text of a non-negative integer, without sign or leading zeros. */
  function Decimal(n: nat): (s: string)
    ensures 1 <= |s|
    ensures forall i :: 0 <= i < |s| ==> IsDecimalDigit(s[i])
    ensures n < 10 <==> |s| == 1
    ensures 10 <= n < 100 <==> |s| == 2
    ensures n >= 10 ==> s[0] != '0'
  {
    if n < 10 then [DigitChar(n)] else Decimal(n / 10) + [DigitChar(n % 10)]
  }

  predicate AllDigits(s: string) {
    forall i :: 0 <= i < |s| ==> IsDecimalDigit(s[i])
  }

  /** The text `Integer.parseInt` accepts in the ASCII range: an optional minus sign, then one or more digits. */
  predicate IsIntText(s: string) {
    if |s| > 0 && s[0] == '-' then |s| > 1 && AllDigits(s[1..]) else |s| > 0 && AllDigits(s)
  }

  /** The value `Integer.parseInt` reads from such text. */
  function IntValue(s: string): int
    requires IsIntText(s)
  {
    if s[0] == '-' then 0 - (DecimalValue(s[1..]) as int) else DecimalValue(s)
  }

  /** `Integer.toString` of any `int`: a minus sign in front of a negative value's digits. */
  function IntText(i: int): (s: string)
    ensures IsIntText(s) && IntValue(s) == i
    ensures (i < 0) == (s[0] == '-')
  {
    if i < 0 then
      var s := "-" + Decimal(-i);
      DecimalRoundTrip(-i);
      assert s[1..] == Decimal(-i);
      s
    else
      DecimalRoundTrip(i);
      Decimal(i)
  }

  /** The number a string of decimal digits denotes (the reading `Integer.parseInt` gives it). */
  function DecimalValue(s: string): nat
    requires forall i :: 0 <= i < |s| ==> IsDecimalDigit(s[i])
  {
    if s == [] then 0
    else
      assert IsDecimalDigit(s[|s| - 1]);
      10 * DecimalValue(s[..|s| - 1]) + (s[|s| - 1] as int - '0' as int)
  }

  /** Reading the decimal text of `n` gives `n` back. */
  lemma {:induction false} DecimalRoundTrip(n: nat)
    ensures DecimalValue(Decimal(n)) == n
  {
    var s := Decimal(n);
    if n >= 10 {
      DecimalRoundTrip(n / 10);
      assert s[..|s| - 1] == Decimal(n / 10);
    }
  }

  /** One scalar value as one to four UTF-8 bytes (RFC 3629, section 3). */
  function Utf8Char(c: char): (bs: seq<byte>)
    ensures 1 <= |bs| <= 4
    ensures c as int < 0x80 <==> |bs| == 1
    ensures |bs| == 1 ==> bs[0] == c as int
    ensures |bs| > 1 ==> bs[0] >= 0xC0 && forall i :: 1 <= i < |bs| ==> 0x80 <= bs[i] < 0xC0
  {
    var v := c as int;
    if v < 0x80 then [v]
    else if v < 0x800 then [0xC0 + v / 0x40, 0x80 + v % 0x40]
    else if v < 0x1_0000 then [0xE0 + v / 0x1000, 0x80 + (v / 0x40) % 0x40, 0x80 + v % 0x40]
    else [0xF0 + v / 0x4_0000, 0x80 + (v / 0x1000) % 0x40, 0x80 + (v / 0x40) % 0x40, 0x80 + v % 0x40]
  }

  /** The scalar value a one- to four-byte UTF-8 sequence carries: the lead byte's payload bits, then six bits per continuation byte. */
  function Utf8Value(bs: seq<byte>): int
    requires 1 <= |bs| <= 4
  {
    var b := seq(|bs|, i requires 0 <= i < |bs| => bs[i] as int);
    if |b| == 1 then b[0]
    else if |b| == 2 then (b[0] - 0xC0) * 0x40 + (b[1] - 0x80)
    else if |b| == 3 then (b[0] - 0xE0) * 0x1000 + (b[1] - 0x80) * 0x40 + (b[2] - 0x80)
    else (b[0] - 0xF0) * 0x4_0000 + (b[1] - 0x80) * 0x1000 + (b[2] - 0x80) * 0x40 + (b[3] - 0x80)
  }

  /** Decoding the bytes of one character gives the character back. */
  lemma Utf8CharReadsBack(c: char)
    ensures Utf8Value(Utf8Char(c)) == c as int
  {
    var v := c as int;
    if v >= 0x80 {
      SixBitGroups(v, if v < 0x800 then 2 else if v < 0x1_0000 then 3 else 4);
    }
  }

  /** A value cut into its leading group and trailing six-bit groups adds back up to the value. */
  lemma SixBitGroups(v: int, n: int)
    requires 0 <= v < 0x11_0000 && 2 <= n <= 4
    ensures v == (v / 0x40) * 0x40 + v % 0x40
    ensures n >= 3 ==>
      && v / 0x1000 == (v / 0x40) / 0x40
      && v == (v / 0x1000) * 0x1000 + ((v / 0x40) % 0x40) * 0x40 + v % 0x40
    ensures n == 4 ==>
      && v / 0x4_0000 == (v / 0x1000) / 0x40
      && v == (v / 0x4_0000) * 0x4_0000 + ((v / 0x1000) % 0x40) * 0x1000 + ((v / 0x40) % 0x40) * 0x40 + v % 0x40
  {
    var w := v / 0x40;
    var x := w / 0x40;
    assert w == x * 0x40 + w % 0x40;
    assert x == (x / 0x40) * 0x40 + x % 0x40;
  }

  /** `String.getBytes(StandardCharsets.UTF_8)`. */
  function Utf8Encode(s: string): (bs: seq<byte>)
    ensures |s| <= |bs| <= 4 * |s|
    ensures |s| == 1 ==> bs == Utf8Char(s[0])
  {
    if s == [] then [] else Utf8Char(s[0]) + Utf8Encode(s[1..])
  }

  /** Encoding distributes over concatenation: each character's bytes, in text order. */
  lemma {:induction false} Utf8EncodeConcat(s: string, t: string)
    ensures Utf8Encode(s + t) == Utf8Encode(s) + Utf8Encode(t)
  {
    if s != [] {
      assert (s + t)[0] == s[0] && (s + t)[1..] == s[1..] + t;
      Utf8EncodeConcat(s[1..], t);
    } else {
      assert s + t == t;
    }
  }

  predicate IsAscii(s: string) {
    forall i :: 0 <= i < |s| ==> s[i] as int < 0x80
  }

  /** On ASCII text UTF-8 is the identity on character codes: one byte per character. */
  lemma {:induction false} Utf8EncodeAscii(s: string)
    requires IsAscii(s)
    ensures Utf8Encode(s) == seq(|s|, i requires 0 <= i < |s| => s[i] as int)
  {
    if s != [] {
      Utf8EncodeAscii(s[1..]);
    }
  }

  /** Hex text is ASCII. */
  lemma LowerHexIsAscii(s: string)
    requires IsLowerHex(s)
    ensures IsAscii(s)
  {
  }
}

=== FILE: wrap_encryption_key.dfy ===
/**
 * `WrapEncryptionKey.main`: the decisions of the key-wrapping command. It
 * loads the recipient's public key from a certificate, picks a kid, takes a
 * user-supplied AES key or generates one, checks the Shamir parameters, writes
 * the envelope to a file named after the kid, and then discloses a generated
 * key either as hex text or as printed Shamir parts. Option parsing,
 * certificate loading, the UUID, the key generator's randomness, JOSE and the
 * Shamir library are given to the model as values and function values.
 */
module WrapEncryptionKey {
  import opened Wrappers
  import opened Hex
  import Text
  import opened SecretSharing
  import opened Envelope
  import CryptoUtils

  /**
   * The options `main` looks at, as commons-cli parsed them; `-n` and `-k`
   * are shown after `Integer.parseInt`.
   */
  datatype CommandLine = CommandLine(
    help: bool,             // -h / --help
    cert: Option<string>,   // -c: certificate path
    kid: Option<string>,    // -i: key identifier
    bytes: Option<string>,  // -b: hex-encoded AES key
    split: bool,            // -s
    num: Option<int>,       // -n
    know: Option<int>)      // -k

  /** `line.getOptions().length == 0`. */
  predicate NoOptions(cl: CommandLine) {
    && !cl.help && cl.cert.None? && cl.kid.None? && cl.bytes.None?
    && !cl.split && cl.num.None? && cl.know.None?
  }

  /** Reading an X.509 certificate file: its public key, or `None` when the file is missing or is not a certificate. */
  type CertLoader = string -> Option<PublicKey>

  /** Why `main` stops without writing an envelope. */
  datatype CliError =
    | MissingCertificate       // ParseException: no -c
    | CertificateUnreadable    // FileNotFoundException or CertificateException
    | KeyNotHex(cause: HexError)
    | KeyNot256Bits
    | SplitNeedsNK
    | NOutOfRange
    | KTooSmall
    | KExceedsN

  const MissingCertificateMessage: string :=
    "Please specifiy a BYOK wrapping certificate in PEM forat with the -c option."
  const KeyNotHexMessage: string := "Unable to hex decode AES key"
  const KeyNot256BitsMessage: string := "You must specify a Hex encoded 256 bit AES key"
  const SplitNeedsNKMessage: string := "If using secret splitting, please specify valued for -n and -k."
  const NOutOfRangeMessage: string := "Lets keep things simple.  Please choose a value of n between 2-10"
  const KTooSmallMessage: string :=
    "There's no point in secret splitting if you don't require knowledge of more than 1 parts.  Choose a better value for k please."
  const KExceedsNMessage: string := "You can't have more parts than pieces! Choose a better value for k that's <= n."

  /** The message of the exception each error is thrown as; a failed certificate read has none that is printed. */
  function ExceptionMessage(e: CliError): (m: string)
    requires !e.CertificateUnreadable?
    ensures |m| > 0
  {
    match e
    case MissingCertificate => MissingCertificateMessage
    case KeyNotHex(_) => KeyNotHexMessage
    case KeyNot256Bits => KeyNot256BitsMessage
    case SplitNeedsNK => SplitNeedsNKMessage
    case NOutOfRange => NOutOfRangeMessage
    case KTooSmall => KTooSmallMessage
    case KExceedsN => KExceedsNMessage
  }

  /** Each check fails with a message of its own; only the hex decoder's fault is not told apart. */
  lemma MessagesTellErrorsApart(e1: CliError, e2: CliError)
    requires !e1.CertificateUnreadable? && !e2.CertificateUnreadable?
    ensures ExceptionMessage(e1) == ExceptionMessage(e2) <==> e1 == e2 || (e1.KeyNotHex? && e2.KeyNotHex?)
  {
  }

  /** The console line `main` prints for an error; `None` where it prints a stack trace instead. */
  function Message(e: CliError): (m: Option<string>)
    ensures m.None? <==> e.CertificateUnreadable?
    ensures m.Some? ==> m.value == "ERROR: " + ExceptionMessage(e)
  {
    if e.CertificateUnreadable? then None else Some("ERROR: " + ExceptionMessage(e))
  }

  /** The key length `main` insists on: 256 bits. */
  const KeyBytes: int := CryptoUtils.AesBitLength / 8

  /** The `-b` key: hex-decoded, and exactly 32 bytes. */
  function UserKey(hex: string): (r: Result<seq<byte>, CliError>)
    ensures r.Success? <==> DecodeHex(hex).Success? && |DecodeHex(hex).value| == KeyBytes
    ensures r.Success? ==> r.value == DecodeHex(hex).value && |hex| == 2 * KeyBytes
    ensures r.Failure? && !r.error.KeyNotHex? ==> r.error == KeyNot256Bits
    ensures r.Failure? && r.error.KeyNotHex? <==> DecodeHex(hex).Failure?
  {
    match DecodeHex(hex)
    case Failure(e) => Failure(KeyNotHex(e))
    case Success(key) => if |key| != KeyBytes then Failure(KeyNot256Bits) else Success(key)
  }

  /** The lower-case hex of any 32-byte key, as the tool itself prints keys, is accepted as that key. */
  lemma UserKeyAcceptsHexKey(key: seq<byte>)
    requires |key| == KeyBytes
    ensures UserKey(EncodeHex(key)) == Success(key)
  {
    DecodeEncode(key);
  }

  /** A key given in upper-case hex, or any mix of cases, is accepted as the same key. */
  lemma UserKeyIgnoresCase(hex: string, key: seq<byte>)
    requires |key| == KeyBytes && Lowered(hex) == EncodeHex(key)
    ensures UserKey(hex) == Success(key)
  {
    DecodeIgnoresCase(hex);
    DecodeEncode(key);
  }

  /** The `-s` parameter checks, in the order `main` makes them. */
  function ValidateSplit(num: Option<int>, know: Option<int>): (r: Result<(int, int), CliError>)
    ensures r.Success? <==>
      num.Some? && know.Some? && 2 <= num.value <= 10 && 1 < know.value <= num.value
    ensures r.Success? ==> r.value == (num.value, know.value) && ValidScheme(Scheme(r.value.0, r.value.1))
    ensures r == Failure(SplitNeedsNK) <==> num.None? || know.None?
    ensures r == Failure(NOutOfRange) <==> num.Some? && know.Some? && !(2 <= num.value <= 10)
    ensures r == Failure(KTooSmall) <==>
      num.Some? && know.Some? && 2 <= num.value <= 10 && know.value <= 1
    ensures r == Failure(KExceedsN) <==>
      num.Some? && know.Some? && 2 <= num.value <= 10 && 1 < know.value && num.value < know.value
  {
    if num.None? || know.None? then Failure(SplitNeedsNK)
    else if num.value > 10 || num.value < 2 then Failure(NOutOfRange)
    else if know.value <= 1 then Failure(KTooSmall)
    else if know.value > num.value then Failure(KExceedsN)
    else Success((num.value, know.value))
  }

  /** What is handed to the splitter: the UTF-8 bytes of the key's lower-case hex text, not the key. */
  function SplitSecret(key: seq<byte>): (secret: seq<byte>)
    ensures |secret| == 2 * |key|
    ensures forall i :: 0 <= i < |secret| ==> secret[i] == EncodeHex(key)[i] as int
  {
    Text.LowerHexIsAscii(EncodeHex(key));
    Text.Utf8EncodeAscii(EncodeHex(key));
    Text.Utf8Encode(EncodeHex(key))
  }

  /** Bytes read one per character, as `new String(bytes, UTF_8)` reads ASCII bytes. */
  function AsciiText(bs: seq<byte>): string {
    seq(|bs|, i requires 0 <= i < |bs| => bs[i] as char)
  }

  /**
   * The split secret of a 32-byte key is 64 bytes, one per hex character; read
   * back as text it is the key's hex, which decodes to the key.
   */
  lemma SplitSecretIsHexText(key: seq<byte>)
    ensures AsciiText(SplitSecret(key)) == EncodeHex(key)
    ensures DecodeHex(AsciiText(SplitSecret(key))) == Success(key)
  {
    DecodeEncode(key);
  }

  const HeaderOpen: string := "Encryption Key can be recovered with "
  const HeaderMiddle: string := " of the following "
  const HeaderClose: string := " parts:"

  /**
   * The header printed above the parts (line 130): it names the threshold `k`,
   * then the number of parts `n`, each as `Integer.toString` text.
   */
  function SplitHeader(n: int, k: int): (h: string)
    ensures var kEnd := |HeaderOpen| + |Text.IntText(k)|;
      var nStart := kEnd + |HeaderMiddle|;
      && |h| == nStart + |Text.IntText(n)| + |HeaderClose|
      && h[..|HeaderOpen|] == HeaderOpen
      && h[|HeaderOpen|..kEnd] == Text.IntText(k)
      && h[kEnd..nStart] == HeaderMiddle
      && h[nStart..|h| - |HeaderClose|] == Text.IntText(n)
      && h[|h| - |HeaderClose|..] == HeaderClose
  {
    Concat5Slices(HeaderOpen, Text.IntText(k), HeaderMiddle, Text.IntText(n), HeaderClose);
    HeaderOpen + Text.IntText(k) + HeaderMiddle + Text.IntText(n) + HeaderClose
  }

  /** Where each piece of a five-piece concatenation sits. */
  lemma Concat5Slices(a: string, b: string, c: string, d: string, e: string)
    ensures var s := a + b + c + d + e;
      && |s| == |a| + |b| + |c| + |d| + |e|
      && s[..|a|] == a && s[|a|..|a| + |b|] == b && s[|a| + |b|..|a| + |b| + |c|] == c
      && s[|a| + |b| + |c|..|s| - |e|] == d && s[|s| - |e|..] == e
  {
    var s := a + b + c + d + e;
    assert s[..|a|] == a;
    assert s[|a|..|a| + |b|] == b;
    assert s[|a| + |b|..|a| + |b| + |c|] == c;
    assert s[|a| + |b| + |c|..|s| - |e|] == d;
  }

  /** The header states `k` and `n`: the number texts in it read back as those values. */
  lemma SplitHeaderNamesNK(n: int, k: int)
    ensures var h := SplitHeader(n, k);
      var kEnd := |HeaderOpen| + |Text.IntText(k)|;
      var nStart := kEnd + |HeaderMiddle|;
      && Text.IsIntText(h[|HeaderOpen|..kEnd]) && Text.IntValue(h[|HeaderOpen|..kEnd]) == k
      && Text.IsIntText(h[nStart..|h| - |HeaderClose|]) && Text.IntValue(h[nStart..|h| - |HeaderClose|]) == n
  {
  }

  const RecoverCommand: string := "./RecoverSplitEncryptionKey"

  /**
   * The example recovery command of line 137 as written, word by word:
   * `-p parts[2] parts[0]`; `None` where `parts[2]` throws
   * ArrayIndexOutOfBoundsException.
   */
  function ExampleCommandAsWritten(n: int, k: int, parts: seq<string>): (words: Option<seq<string>>)
    ensures words.Some? <==> |parts| >= 3
    ensures words.Some? ==> |words.value| == 8 && words.value[6..] == [parts[2], parts[0]]
    ensures words.Some? ==>
      words.value[..6] == [RecoverCommand, "-n", Text.IntText(n), "-k", Text.IntText(k), "-p"]
  {
    if |parts| < 3 then None
    else Some([RecoverCommand, "-n", Text.IntText(n), "-k", Text.IntText(k), "-p", parts[2], parts[0]])
  }

  /**
   * The example command as intended: `k` of the `n` parts, the last part
   * first followed by the first `k - 1`, which for the defaults `n = 3`,
   * `k = 2` is exactly `parts[2] parts[0]`.
   */
  function ExampleCommand(n: int, k: int, parts: seq<string>): (words: seq<string>)
    requires 1 < k <= n == |parts|
    ensures |words| == 6 + k
    ensures words[..6] == [RecoverCommand, "-n", Text.IntText(n), "-k", Text.IntText(k), "-p"]
    ensures words[6] == parts[n - 1] && words[7..] == parts[..k - 1]
  {
    [RecoverCommand, "-n", Text.IntText(n), "-k", Text.IntText(k), "-p", parts[n - 1]] + parts[..k - 1]
  }

  /** The slots of the parts the example names. */
  function ExampleSlots(n: int, k: int): seq<int>
    requires 1 <= k
  {
    [n - 1] + seq(k - 1, i => i)
  }

  /** Validation lets `n = 2` through, and then `parts[2]` is out of bounds for the two printed parts. */
  lemma TwoPartExampleOverruns(shares: map<int, seq<byte>>)
    requires NumberedOneTo(shares, 2)
    ensures ValidateSplit(Some(2), Some(2)) == Success((2, 2))
    ensures |SplitParts(2, shares)| == 2
    ensures ExampleCommandAsWritten(2, 2, SplitParts(2, shares)) == None
  {
  }

  /** With `k = 3` the written command names only two parts, fewer than the threshold. */
  lemma ExampleNamesTooFewParts(shares: map<int, seq<byte>>)
    requires NumberedOneTo(shares, 3)
    ensures ValidateSplit(Some(3), Some(3)) == Success((3, 3))
    ensures ExampleCommandAsWritten(3, 3, SplitParts(3, shares)).Some?
    ensures |ExampleCommandAsWritten(3, 3, SplitParts(3, shares)).value[6..]| == 2 < 3
  {
  }

  /** On the defaults the corrected command is the written one. */
  lemma ExampleAgreesOnDefaults(parts: seq<string>)
    requires |parts| == 3
    ensures ExampleCommandAsWritten(3, 2, parts) == Some(ExampleCommand(3, 2, parts))
  {
    assert parts[..1] == [parts[0]];
    assert ExampleCommand(3, 2, parts) ==
      [RecoverCommand, "-n", Text.IntText(3), "-k", Text.IntText(2), "-p", parts[2], parts[0]];
  }

  /**
   * For every accepted `n`, `k` the corrected command's parts read back to
   * exactly `k` shares of the split: share `n` and shares `1 .. k - 1`.
   */
  lemma ExampleCommandReadsBack(n: int, k: int, shares: map<int, seq<byte>>)
    requires ValidateSplit(Some(n), Some(k)).Success?
    requires NumberedOneTo(shares, n)
    ensures var picked := ParseParts(ExampleCommand(n, k, SplitParts(n, shares))[6..]);
      && picked.Success?
      && (forall p :: p in picked.value <==> p == n || 1 <= p < k)
      && (forall p :: p in picked.value ==> picked.value[p] == shares[p])
  {
    var parts := SplitParts(n, shares);
    ExampleIsPick(n, k, parts);
    var picked := ExamplePicked(n, k, shares);
    assert ParseParts(ExampleCommand(n, k, parts)[6..]) == Success(picked);
  }

  /** The shares the example's parts carry, by `PickedPartsReadBack`. */
  lemma ExamplePicked(n: int, k: int, shares: map<int, seq<byte>>) returns (picked: map<int, seq<byte>>)
    requires 1 < k <= n <= 10 && NumberedOneTo(shares, n)
    ensures ParseParts(Pick(SplitParts(n, shares), ExampleSlots(n, k))) == Success(picked)
    ensures forall p :: p in picked <==> p == n || 1 <= p < k
    ensures forall p :: p in picked ==> picked[p] == shares[p]
  {
    var slots := ExampleSlots(n, k);
    ExampleSlotNumbers(n, k);
    PickedPartsReadBack(n, shares, slots);
    picked := map p | p in shares && p - 1 in slots :: shares[p];
    forall p
      ensures p in picked <==> p == n || 1 <= p < k
    {
      assert p in picked <==> p in shares && p - 1 in slots;
      assert p in shares <==> 1 <= p <= n;
      assert p - 1 in slots <==> p - 1 == n - 1 || 0 <= p - 1 < k - 1;
    }
  }

  lemma ExampleIsPick(n: int, k: int, parts: seq<string>)
    requires 1 < k <= n == |parts|
    ensures ExampleCommand(n, k, parts)[6..] == Pick(parts, ExampleSlots(n, k))
  {
    var slots := ExampleSlots(n, k);
    var words := ExampleCommand(n, k, parts);
    assert |words[6..]| == |slots|;
    forall j | 0 <= j < |slots|
      ensures words[6..][j] == parts[slots[j]]
    {
      if j > 0 {
        assert slots[j] == j - 1;
        assert words[7..][j - 1] == parts[..k - 1][j - 1];
      }
    }
  }

  /** The example's slots are slot `n - 1` and slots `0 .. k - 2`, all in range. */
  lemma ExampleSlotNumbers(n: int, k: int)
    requires 1 < k <= n
    ensures forall j :: 0 <= j < |ExampleSlots(n, k)| ==> 0 <= ExampleSlots(n, k)[j] < n
    ensures forall q :: q in ExampleSlots(n, k) <==> q == n - 1 || 0 <= q < k - 1
  {
    var slots := ExampleSlots(n, k);
    assert |slots| == k && slots[0] == n - 1;
    forall j | 1 <= j < k
      ensures slots[j] == j - 1
    {
      assert slots[j] == seq(k - 1, i => i)[j - 1];
    }
    forall q | q == n - 1 || 0 <= q < k - 1
      ensures q in slots
    {
      if q == n - 1 {
        assert slots[0] == q;
      } else {
        assert slots[q + 1] == q;
      }
    }
  }

  /** What the user is shown about the key once the envelope is written. */
  datatype Disclosure =
    | UserKeyWrapped                                                 // -b: the user has the key
    | HexKeyShown(hex: string)                                       // "Hex encoded encryption key: ..."
    /**
     * The header, the parts, then the example command of line 137 as written;
     * `example` is `None` where that line throws ArrayIndexOutOfBoundsException,
     * after the envelope is written and the parts are printed.
     */
    | KeySplit(header: string, parts: seq<string>, example: Option<seq<string>>)

  /** How a run of `main` ends. */
  datatype Outcome =
    | ShowHelp
    | Failed(error: CliError)
    /** The envelope text is written, UTF-8 encoded, to the file named `kid`; `key` is the key it wraps. */
    | Completed(kid: string, key: seq<byte>, envelope: string, disclosure: Disclosure)

  /** The outcome of `main` on a parsed command line. */
  function WrapOutcome(cl: CommandLine, loadCert: CertLoader, uuid: string, random: seq<byte>,
                       jose: Jose, split: SplitFn): (r: Outcome)
    requires |random| >= KeyBytes && NumbersSharesOneToN(split)
    ensures r == ShowHelp <==> cl.help || NoOptions(cl)
    ensures r == Failed(MissingCertificate) <==> !r.ShowHelp? && cl.cert.None?
    ensures r == Failed(CertificateUnreadable) <==>
      !r.ShowHelp? && cl.cert.Some? && loadCert(cl.cert.value).None?
    ensures r.Completed? ==>
      && cl.cert.Some? && loadCert(cl.cert.value).Some?
      && r.kid == (if cl.kid.Some? then cl.kid.value else uuid)
      && |r.key| == KeyBytes
      && r.envelope == Rendered(r.kid, r.key, loadCert(cl.cert.value).value, jose)
    ensures r.Completed? && cl.bytes.Some? ==>
      r.disclosure == UserKeyWrapped && UserKey(cl.bytes.value) == Success(r.key)
    ensures r.Completed? && cl.bytes.None? ==> r.key == random[..KeyBytes] && !r.disclosure.UserKeyWrapped?
    ensures r.Completed? && r.disclosure.HexKeyShown? ==>
      cl.bytes.None? && !cl.split && r.disclosure.hex == EncodeHex(r.key)
    ensures r.Completed? && r.disclosure.KeySplit? ==>
      && cl.bytes.None? && cl.split && ValidateSplit(cl.num, cl.know).Success?
      && r.disclosure.header == SplitHeader(cl.num.value, cl.know.value)
      && r.disclosure.parts ==
           SplitParts(cl.num.value, split(Scheme(cl.num.value, cl.know.value), SplitSecret(r.key)))
    ensures !(cl.help || NoOptions(cl)) && cl.cert.Some? && loadCert(cl.cert.value).Some? ==>
      && (cl.bytes.Some? && UserKey(cl.bytes.value).Failure? ==> r == Failed(UserKey(cl.bytes.value).error))
      && (cl.bytes.None? && cl.split && ValidateSplit(cl.num, cl.know).Failure? ==>
            r == Failed(ValidateSplit(cl.num, cl.know).error))
      && (r.Completed? <==>
            && (cl.bytes.Some? ==> UserKey(cl.bytes.value).Success?)
            && (cl.bytes.None? && cl.split ==> ValidateSplit(cl.num, cl.know).Success?))
  {
    if cl.help || NoOptions(cl) then ShowHelp
    else if cl.cert.None? then Failed(MissingCertificate)
    else match loadCert(cl.cert.value)
      case None => Failed(CertificateUnreadable)
      case Some(publicKey) =>
        var kid := if cl.kid.Some? then cl.kid.value else uuid;
        if cl.bytes.Some? then
          match UserKey(cl.bytes.value)
          case Failure(e) => Failed(e)
          case Success(key) => Completed(kid, key, Rendered(kid, key, publicKey, jose), UserKeyWrapped)
        else
          var key := random[..KeyBytes];
          var envelope := Rendered(kid, key, publicKey, jose);
          if !cl.split then Completed(kid, key, envelope, HexKeyShown(EncodeHex(key)))
          else match ValidateSplit(cl.num, cl.know)
            case Failure(e) => Failed(e)
            case Success(nk) =>
              var scheme := Scheme(nk.0, nk.1);
              var parts := SplitParts(nk.0, split(scheme, SplitSecret(key)));
              Completed(kid, key, envelope,
                        KeySplit(SplitHeader(nk.0, nk.1), parts, ExampleCommandAsWritten(nk.0, nk.1, parts)))
  }

  /**
   * `main`, with the locals it reassigns and an early exit at each check; the
   * printed parts are the ones `SSSUtils.split` returns, in slot order, and the
   * example command is the one line 137 prints, or its crash.
   */
  method Run(cl: CommandLine, loadCert: CertLoader, uuid: string, random: seq<byte>,
             jose: Jose, split: SplitFn, join: JoinFn) returns (outcome: Outcome)
    requires |random| >= KeyBytes && NumbersSharesOneToN(split)
    ensures outcome == WrapOutcome(cl, loadCert, uuid, random, jose, split)
  {
    var publicWrappingKey: PublicKey := [];
    var kid := "";
    var scriptGeneratedKey := true;
    var byokKey: seq<byte> := [];
    var n, k := 3, 2;

    if cl.help || NoOptions(cl) {
      return ShowHelp;
    }
    if cl.cert.Some? {
      var loaded := loadCert(cl.cert.value);
      if loaded.None? {
        return Failed(CertificateUnreadable);
      }
      publicWrappingKey := loaded.value;
    } else {
      return Failed(MissingCertificate);
    }

    if cl.kid.Some? {
      kid := cl.kid.value;
    } else {
      kid := uuid;
    }

    if cl.bytes.Some? {
      scriptGeneratedKey := false;
      var decoded := DecodeHex(cl.bytes.value);
      if decoded.Failure? {
        return Failed(KeyNotHex(decoded.error));
      }
      byokKey := decoded.value;
      if |byokKey| != 32 {
        return Failed(KeyNot256Bits);
      }
    } else {
      byokKey := CryptoUtils.GenerateAesKey(random);
      if cl.split {
        if cl.num.None? || cl.know.None? {
          return Failed(SplitNeedsNK);
        }
        n := cl.num.value;
        if n > 10 || n < 2 {
          return Failed(NOutOfRange);
        }
        k := cl.know.value;
        if k <= 1 {
          return Failed(KTooSmall);
        }
        if k > n {
          return Failed(KExceedsN);
        }
      }
    }

    var keyRepresentation := new KeyRepresentation(kid, byokKey, publicWrappingKey);
    var envelope := keyRepresentation.ToString(jose);
    assert envelope == Rendered(kid, byokKey, loadCert(cl.cert.value).value, jose);

    var disclosure := UserKeyWrapped;
    if scriptGeneratedKey {
      var hexEncodedKey := EncodeHex(byokKey);
      assert byokKey == random[..KeyBytes];
      if cl.split {
        assert ValidateSplit(cl.num, cl.know) == Success((n, k));
        disclosure := ShowSplit(n, k, hexEncodedKey, split, join);
      } else {
        disclosure := HexKeyShown(hexEncodedKey);
      }
    } else {
      assert UserKey(cl.bytes.value) == Success(byokKey);
    }
    outcome := Completed(kid, byokKey, envelope, disclosure);
  }

  /**
   * Lines 124-137 of `main`: split the UTF-8 bytes of the key's hex text,
   * print the header, each part in slot order, then the example command.
   */
  method ShowSplit(n: int, k: int, hexEncodedKey: string, split: SplitFn, join: JoinFn) returns (d: Disclosure)
    requires 1 < k <= n <= 10 && NumbersSharesOneToN(split)
    ensures var parts := SplitParts(n, split(Scheme(n, k), Text.Utf8Encode(hexEncodedKey)));
      d == KeySplit(SplitHeader(n, k), parts, ExampleCommandAsWritten(n, k, parts))
  {
    var sssUtils := new SssUtils(n, k, split, join);
    var parts := sssUtils.Split(Text.Utf8Encode(hexEncodedKey));
    var printed: seq<string> := [];
    for i := 0 to parts.Length
      invariant printed == parts[..i]
    {
      printed := printed + [parts[i]];
    }
    assert printed == parts[..];
    d := KeySplit(SplitHeader(n, k), printed, ExampleCommandAsWritten(n, k, parts[..]));
  }

  /** With `-b` the Shamir options are never looked at: `-s`, `-n` and `-k` change nothing. */
  lemma UserKeyIgnoresSplitOptions(cl: CommandLine, loadCert: CertLoader, uuid: string, random: seq<byte>,
                                   jose: Jose, split: SplitFn, s: bool, num: Option<int>, know: Option<int>)
    requires |random| >= KeyBytes && NumbersSharesOneToN(split)
    requires cl.bytes.Some?
    ensures WrapOutcome(cl, loadCert, uuid, random, jose, split) ==
            WrapOutcome(cl.(split := s, num := num, know := know), loadCert, uuid, random, jose, split)
  {
  }

  /**
   * The printed parts read back to exactly the share map the library
   * returned, because validation keeps `n` at most 10; given a `join` that
   * inverts `split`, recovering them yields the split secret, whose text is
   * the key's hex.
   */
  lemma PrintedPartsRecoverKey(cl: CommandLine, loadCert: CertLoader, uuid: string, random: seq<byte>,
                               jose: Jose, split: SplitFn, join: JoinFn)
    requires |random| >= KeyBytes && NumbersSharesOneToN(split)
    requires var r := WrapOutcome(cl, loadCert, uuid, random, jose, split);
      r.Completed? && r.disclosure.KeySplit?
    requires var scheme := Scheme(cl.num.value, cl.know.value);
      var secret := SplitSecret(random[..KeyBytes]);
      join(scheme, split(scheme, secret)) == secret
    ensures var r := WrapOutcome(cl, loadCert, uuid, random, jose, split);
      var scheme := Scheme(cl.num.value, cl.know.value);
      && ParseParts(r.disclosure.parts) == Success(split(scheme, SplitSecret(r.key)))
      && Recovered(scheme, join, r.disclosure.parts) == Success(SplitSecret(r.key))
      && DecodeHex(AsciiText(Recovered(scheme, join, r.disclosure.parts).value)) == Success(r.key)
  {
    var r := WrapOutcome(cl, loadCert, uuid, random, jose, split);
    var scheme := Scheme(cl.num.value, cl.know.value);
    var shares := split(scheme, SplitSecret(r.key));
    assert ValidScheme(scheme);
    assert NumberedOneTo(shares, scheme.n);
    SplitPartsReadBack(scheme.n, shares);
    RecoverAfterSplit(scheme, split, join, SplitSecret(r.key));
    SplitSecretIsHexText(r.key);
  }

  /**
   * In a run that splits the key, the example command of line 137 crashes
   * exactly when `n = 2`; otherwise it names `parts[2]` and `parts[0]`.
   */
  lemma ExampleCrashesExactlyForTwoParts(cl: CommandLine, loadCert: CertLoader, uuid: string, random: seq<byte>,
                                         jose: Jose, split: SplitFn)
    requires |random| >= KeyBytes && NumbersSharesOneToN(split)
    requires var r := WrapOutcome(cl, loadCert, uuid, random, jose, split);
      r.Completed? && r.disclosure.KeySplit?
    ensures var r := WrapOutcome(cl, loadCert, uuid, random, jose, split);
      && (r.disclosure.example.None? <==> cl.num.value == 2)
      && (r.disclosure.example.Some? ==>
            r.disclosure.example.value[6..] == [r.disclosure.parts[2], r.disclosure.parts[0]])
  {
    var r := WrapOutcome(cl, loadCert, uuid, random, jose, split);
    var scheme := Scheme(cl.num.value, cl.know.value);
    assert ValidScheme(scheme);
    assert |r.disclosure.parts| == cl.num.value;
  }

  /** `-c <cert> -s -n 2 -k 2` is accepted, writes the envelope and prints both parts, then crashes at line 137. */
  lemma TwoPartRunCrashes(loadCert: CertLoader, uuid: string, random: seq<byte>, jose: Jose, split: SplitFn)
    requires |random| >= KeyBytes && NumbersSharesOneToN(split)
    requires loadCert("cert.pem").Some?
    ensures var r := WrapOutcome(CommandLine(false, Some("cert.pem"), None, None, true, Some(2), Some(2)),
                                 loadCert, uuid, random, jose, split);
      && r.Completed? && r.disclosure.KeySplit?
      && |r.disclosure.parts| == 2
      && r.disclosure.example == None
  {
    var cl := CommandLine(false, Some("cert.pem"), None, None, true, Some(2), Some(2));
    ExampleCrashesExactlyForTwoParts(cl, loadCert, uuid, random, jose, split);
  }
}

=== FILE: wrappers.dfy ===
/** Option and Result: the model's stand-ins for Java's `null` and for thrown exceptions. */
module Wrappers {

  /** `None` plays the part of a Java `null` reference. */
  datatype Option<+T> = None | Some(value: T)

  /** `Failure` plays the part of an exception thrown out of an operation. */
  datatype Result<+R, +E> = Success(value: R) | Failure(error: E)
}
